=== FILE: README.md ===
# Address utilities and default client profile

This project models two pieces of the watt libraries in Dafny and proves properties of them.

The first is `NetUtil`:
- the two address grammars, `isIPV4`, `isIPV6` and `isMatch`;
- `isValidIp` with and without its flags, and `isValidAddress`;
- the conversions between `"host:port"` strings, socket addresses and `long` keys: `toInetSocketAddress`, `toStringAddress`, `toIpAddress` and `toLong`;
- `validAddress`;
- the search for a usable local address (`getLocalAddress0`), its cache (`getLocalAddress`), and the two convenience getters `getLocalIp` and `getLocalHost`.

The second is `DefaultProfile`: the credential state machine (`getCredential`, `setCredentialsProvider`), the configuration setters and flags, the static singleton behind the `getProfile` overloads, and the `addEndpoint` overloads.

Modules, one per file:

- `Wrappers`: `Option`, `Result` and `Outcome`.
- `Text`: ASCII digits, decimal rendering, `indexOf` and splitting at a character.
- `IpGrammar`: the two regular expressions as they are matched.
  - `find()` with `^…$` is modelled with `java.util.regex` semantics: `$` may also match before one final line terminator.
  - Each pattern is given three equivalent descriptions: the regex language with backtracking, a parse at the first separator, and "split into fields".
- `IpPolicy`: `isValidIp` and its `127.0.0.1` / `0.0.0.0` flags.
- `SocketAddresses`: `Integer.parseInt`, `InetSocketAddress` construction, and the string conversions.
  - Name resolution is a map from host strings to addresses, supplied by the caller.
- `AddressKey`: `toLong`, with `String.split`, `Long.parseLong`, 64-bit `<<` and `|` written out.
  - The key is related to an independent arithmetic encoding of four octets and a port.
- `LocalAddress`: the local-address search.
  - The machine is an `Environment` value: what `InetAddress.getLocalHost()` and each interface and address enumeration return or throw.
  - The loop method is proved equal to a reference definition (the first valid candidate).
- `DefaultProfile`: one profile object as an immutable record. The getters (`getRegionId`, `getFormat`, `getHttpClientConfig`, `isUsing…`, `getLogger`, `getLogFormat`) are its field selectors.
- `ProfileWorld`: the static state.
  - It holds a heap of profiles and the static `profile` reference, so a caller that holds an earlier profile is modelled.
  - It also holds the endpoint registry.

Points where the code behaves in ways a reader might not expect:
- `toInetSocketAddress` splits at the first colon, so an IPv6 host address rendered by `toStringAddress` does not parse back (`Ipv6NotReparsed`).
- `toLong` packs the octets at bits 40, 32, 24 and 16 and the port at bit 0. The fields are adjacent, with no gap, and the key is injective and order-preserving (`KeyInjective`, `KeyOrder`).
- `getLocalAddress` stores whatever the search returns:
  - A null result is stored as null and therefore searched for again on the next call (`NullIsNotCached`).
  - A rejected, for example loopback, `getLocalHost()` result is returned and stored when nothing valid is found (`InvalidLocalHostIsCached`).
- `isValidAddress` calls the one-argument `isValidIp`, which accepts `0.0.0.0` (`AnyHostCountsAsValid`). It would accept a 127.x address only if the environment did not flag it as loopback.
- `setCredentialsProvider` stores an adaptor as the credential only when there is none. The adaptor then shadows any `ICredentialProvider` (`AdaptorShadowsProvider`).
- On an IPv6 host address, `toLong` fails in `Long.parseLong(ip[0])` with a number-format error, not an index error (`ToLongRejectsIpv6`).

## Model

| member | source | states |
|---|---|---|
| IpGrammar.IsMatch | watt-core/src/main/java/com/kitsrc/watt/util/NetUtil.java:55-61 | `isMatch`: null or blank text is rejected, otherwise `find()` of the anchored pattern decides. Its meaning is proved in `DollarFindAtBodyEnd` and `MatchWithoutTerminator`. |
| IpGrammar.IsIPv4 | watt-core/src/main/java/com/kitsrc/watt/util/NetUtil.java:47-49 | `isIPV4` is `isMatch` with the IPv4 pattern. `IsIPv4Iff` proves it accepts exactly four dot-separated octets; `TrailingTerminatorAccepted` covers a final line terminator. |
| IpGrammar.IsIPv6 | watt-core/src/main/java/com/kitsrc/watt/util/NetUtil.java:51-53 | `isIPV6` is `isMatch` with the IPv6 pattern. `IsIPv6Iff` proves it accepts exactly eight colon-separated groups of one to four hex digits. |
| IpGrammar.OctetTokenIsOctetField | watt-core/src/main/java/com/kitsrc/watt/util/NetUtil.java:43-44 | The octet sub-pattern (250–255, 200–249, or an optional 0/1 before one or two digits) matches exactly the one- to three-digit ASCII strings whose value is at most 255, leading zeros included. |
| IpGrammar.BodyIsRegexLanguage | watt-core/src/main/java/com/kitsrc/watt/util/NetUtil.java:43-45 | Both pattern bodies, read as "split into fields", accept exactly the backtracking language of `(T sep){n} T`, with n = 3 and `.` for IPv4, n = 7 and `:` for IPv6. |
| IpGrammar.RegexLanguageIsRepeated | watt-core/src/main/java/com/kitsrc/watt/util/NetUtil.java:43-45 | Backtracking over separator positions accepts the same strings as always cutting at the first separator, because tokens contain no separator. |
| IpGrammar.RepeatedIsSplit | watt-core/src/main/java/com/kitsrc/watt/util/NetUtil.java:43-45 | Parsing at the first separator n times succeeds iff splitting at every separator gives n + 1 fields, all tokens. |
| IpGrammar.DollarFindAtBodyEnd | watt-core/src/main/java/com/kitsrc/watt/util/NetUtil.java:55-61 | `find()` on an anchored pattern succeeds iff the input, minus at most one final line terminator, is exactly a pattern body. |
| IpGrammar.MatchWithoutTerminator | watt-core/src/main/java/com/kitsrc/watt/util/NetUtil.java:55-61 | On input without a trailing line terminator, `isMatch` holds iff the whole string is a pattern body. |
| IpGrammar.IsIPv4Iff | watt-core/src/main/java/com/kitsrc/watt/util/NetUtil.java:43-49 | Without a trailing line terminator, `isIPV4` holds iff the string is four dot-separated octets of value 0 to 255. |
| IpGrammar.IsIPv6Iff | watt-core/src/main/java/com/kitsrc/watt/util/NetUtil.java:45-53 | Without a trailing line terminator, `isIPV6` holds iff the string is eight colon-separated groups of one to four hex digits. |
| IpGrammar.TrailingTerminatorAccepted | watt-core/src/main/java/com/kitsrc/watt/util/NetUtil.java:55-61 | A valid IPv4 string followed by one line terminator is still accepted, because `$` matches before a final terminator. |
| IpGrammar.BlankRejected | watt-core/src/main/java/com/kitsrc/watt/util/NetUtil.java:55-58 | Null and blank inputs are neither IPv4 nor IPv6. |
| IpGrammar.AbbreviatedIPv6Rejected | watt-core/src/main/java/com/kitsrc/watt/util/NetUtil.java:45 | No string containing `::` is accepted as IPv6: the pattern has no compressed form. |
| IpGrammar.IPv4HasNoColon | watt-core/src/main/java/com/kitsrc/watt/util/NetUtil.java:43-44 | An accepted IPv4 string contains no colon, including any trailing terminator. |
| IpGrammar.IPv6HasNoDot | watt-core/src/main/java/com/kitsrc/watt/util/NetUtil.java:45 | An accepted IPv6 string contains no dot, so it never splits into IPv4 fields. |
| IpPolicy.IsValidIp | watt-core/src/main/java/com/kitsrc/watt/util/NetUtil.java:248-267 | The result holds iff the string is IPv4 or IPv6, `127.0.0.1` only when `includeLocal`, and `0.0.0.0` only when `includeAny`; null is rejected. |
| IpPolicy.IsValidIpDefault | watt-core/src/main/java/com/kitsrc/watt/util/NetUtil.java:235-237 | The one-argument form accepts every IPv4 or IPv6 string, both special literals included. |
| IpPolicy.FlagsAreMonotone | watt-core/src/main/java/com/kitsrc/watt/util/NetUtil.java:248-267 | Turning either flag on never rejects an address that was accepted. |
| IpPolicy.SpecialLiterals | watt-core/src/main/java/com/kitsrc/watt/util/NetUtil.java:254-264 | `127.0.0.1` is valid exactly when `includeLocal` and `0.0.0.0` exactly when `includeAny`; the empty string and null never are. |
| SocketAddresses.ParseSigned | watt-core/src/main/java/com/kitsrc/watt/util/NetUtil.java:108 | `parseInt` yields a value in the integer range or fails with a number-format error; which texts succeed is stated by `ParseSignedAccepts`. |
| SocketAddresses.ParseSignedAccepts | watt-core/src/main/java/com/kitsrc/watt/util/NetUtil.java:108 | `parseInt` succeeds iff the text is an optional `-` or `+` followed by at least one decimal digit and nothing else, with its signed value in range. The result is that signed value. So `""`, a lone sign and `"8a"` are number-format errors. |
| SocketAddresses.ParseSignedRejectsNonDigit | watt-core/src/main/java/com/kitsrc/watt/util/NetUtil.java:108 | Any character that is neither a digit nor a leading sign, a colon included, makes `parseInt` fail with a number-format error. |
| SocketAddresses.ParseSignedOfDigits | watt-core/src/main/java/com/kitsrc/watt/util/NetUtil.java:108 | A nonempty digit string whose value is in range parses to its decimal value. |
| SocketAddresses.ParseIntOfDecimal | watt-core/src/main/java/com/kitsrc/watt/util/NetUtil.java:108 | The decimal rendering of any integer up to `Integer.MAX_VALUE` parses back to it. |
| SocketAddresses.NewSocketAddress | watt-core/src/main/java/com/kitsrc/watt/util/NetUtil.java:113 | Construction succeeds iff the port is in 0 to 65535, and otherwise fails with an illegal-argument error. |
| SocketAddresses.ToInetSocketAddress | watt-core/src/main/java/com/kitsrc/watt/util/NetUtil.java:102-114 | The only failures are number-format and illegal-argument errors. On success the host text is present and is a prefix of the input: the whole input, or the part before the colon. |
| SocketAddresses.ParseWithoutColon | watt-core/src/main/java/com/kitsrc/watt/util/NetUtil.java:103-112 | A string without a colon is the host, resolved through the resolver, with port 0. |
| SocketAddresses.ParseAtFirstColon | watt-core/src/main/java/com/kitsrc/watt/util/NetUtil.java:103-113 | With a colon, the host is the text before the first colon. An unparsable rest is a number-format error, an out-of-range port is an illegal-argument error, and otherwise the port is the parsed value. |
| SocketAddresses.ToStringAddress | watt-core/src/main/java/com/kitsrc/watt/util/NetUtil.java:91-94 | Rendering fails with a null-pointer error exactly when the address is unresolved. |
| SocketAddresses.ToIpAddress | watt-core/src/main/java/com/kitsrc/watt/util/NetUtil.java:79-83 | The IP address is the `toStringAddress` text without its `:port` suffix, and fails in the same cases. |
| SocketAddresses.StringAddressRoundTrip | watt-core/src/main/java/com/kitsrc/watt/util/NetUtil.java:91-114 | Parsing the rendering of a resolved address with a colon-free host address gives that host address and the same port. |
| SocketAddresses.Ipv4RoundTrip | watt-core/src/main/java/com/kitsrc/watt/util/NetUtil.java:91-114 | An address with an IPv4 host address, named by it, that the resolver maps back parses to the same socket address it was rendered from. |
| SocketAddresses.ColonHostNotReparsed | watt-core/src/main/java/com/kitsrc/watt/util/NetUtil.java:103-108 | A rendered host address that contains a colon makes the parse fail with a number-format error. |
| SocketAddresses.Ipv6NotReparsed | watt-core/src/main/java/com/kitsrc/watt/util/NetUtil.java:91-114 | The rendering of any address with an IPv6 host address fails to parse with a number-format error. |
| SocketAddresses.ValidAddress | watt-core/src/main/java/com/kitsrc/watt/util/NetUtil.java:216-220 | The check throws an illegal-argument error iff the host name is null or the port is 0. |
| SocketAddresses.ParsedAddressValidity | watt-core/src/main/java/com/kitsrc/watt/util/NetUtil.java:216-220 | A successfully parsed address passes `validAddress` iff its port is nonzero, so a colon-free string never passes. |
| AddressKey.DropTrailingEmpty | watt-core/src/main/java/com/kitsrc/watt/util/NetUtil.java:126 | The result is a prefix of the fields; it ends in a nonempty field (or is empty); only empty fields are dropped. |
| AddressKey.JavaSplit | watt-core/src/main/java/com/kitsrc/watt/util/NetUtil.java:124-126 | `split` returns the whole string when there is no separator. Otherwise it returns the full field list minus its trailing empty fields: a prefix that is empty or ends in a non-empty field, with every dropped field empty. |
| AddressKey.ParseFields | watt-core/src/main/java/com/kitsrc/watt/util/NetUtil.java:128-131 | Reading `ip[0..n-1]` in order succeeds iff there are n fields and all parse. The values are the parsed ones. A parse failure among the fields present is a number-format error, and too few parsable fields is an index error. |
| AddressKey.Unsigned64 | watt-core/src/main/java/com/kitsrc/watt/util/NetUtil.java:127-133 | The bit pattern of a `long` lies below 2^64 and converts back to the same `long`. |
| AddressKey.OrBits | watt-core/src/main/java/com/kitsrc/watt/util/NetUtil.java:128-132 | Bit i of the bitwise or of a and b is set iff bit i of a or of b is. |
| AddressKey.ToLong | watt-core/src/main/java/com/kitsrc/watt/util/NetUtil.java:122-134 | The result is a `long`. A parse error of the address propagates, and an unresolved address is a null-pointer error. |
| AddressKey.PackIsKey | watt-core/src/main/java/com/kitsrc/watt/util/NetUtil.java:127-132 | On four octets and a port, the shifts and ors equal the arithmetic key `o0·2^40 + o1·2^32 + o2·2^24 + o3·2^16 + port`. |
| AddressKey.KeyBound | watt-core/src/main/java/com/kitsrc/watt/util/NetUtil.java:127-132 | Keys lie below 2^48, so they are non-negative `long`s. |
| AddressKey.KeyDecodes | watt-core/src/main/java/com/kitsrc/watt/util/NetUtil.java:127-132 | Octets and port are recovered from the key. |
| AddressKey.KeyCovers | watt-core/src/main/java/com/kitsrc/watt/util/NetUtil.java:127-132 | Every number below 2^48 is the key of the parts decoded from it: the fields leave no gap. |
| AddressKey.KeyInjective | watt-core/src/main/java/com/kitsrc/watt/util/NetUtil.java:127-132 | Distinct addresses with ports have distinct keys. |
| AddressKey.KeyOrder | watt-core/src/main/java/com/kitsrc/watt/util/NetUtil.java:127-132 | Key order is the lexicographic order of (octet 0, …, octet 3, port), in both directions. |
| AddressKey.ToLongOfIpv4 | watt-core/src/main/java/com/kitsrc/watt/util/NetUtil.java:122-134 | For a resolved address whose host address is four octets, the result is the key of those octets and the port. |
| AddressKey.ToLongRejectsIpv6 | watt-core/src/main/java/com/kitsrc/watt/util/NetUtil.java:124-128 | An IPv6 host address makes `toLong` fail with a number-format error. |
| AddressKey.ToLongRejectsShortAddress | watt-core/src/main/java/com/kitsrc/watt/util/NetUtil.java:128-131 | A host address with fewer than four dot fields, all parsable, fails with an index error. |
| LocalAddress.IsValidAddress | watt-core/src/main/java/com/kitsrc/watt/util/NetUtil.java:228-233 | An address is valid iff it is present, not loopback, and its host address is IPv4 or IPv6. |
| LocalAddress.ValidAddressByFields | watt-core/src/main/java/com/kitsrc/watt/util/NetUtil.java:228-237 | Without a trailing terminator, validity is "not loopback, and four octets or eight hex groups"; the special literals are not excluded. |
| LocalAddress.AnyHostCountsAsValid | watt-core/src/main/java/com/kitsrc/watt/util/NetUtil.java:228-237 | A non-loopback `0.0.0.0` address is valid. |
| LocalAddress.FirstValid | watt-core/src/main/java/com/kitsrc/watt/util/NetUtil.java:183-202 | The candidate returned is valid and no earlier candidate is; nothing is returned iff no candidate is valid. |
| LocalAddress.LocalAddressOf | watt-core/src/main/java/com/kitsrc/watt/util/NetUtil.java:170-209 | The search yields a valid address iff the local host or some interface address is valid. An invalid result is the local host's answer, or null. A valid interface result is the first valid candidate. |
| LocalAddress.GetLocalAddress0 | watt-core/src/main/java/com/kitsrc/watt/util/NetUtil.java:170-209 | The nested loops, with their skipped exceptions and null enumerations, return what the reference search defines. |
| LocalAddress.ValidLocalHostWins | watt-core/src/main/java/com/kitsrc/watt/util/NetUtil.java:172-176 | A valid local host is returned without consulting the interfaces. |
| LocalAddress.GetLocalAddress | watt-core/src/main/java/com/kitsrc/watt/util/NetUtil.java:161-168 | A stored address is returned as is; otherwise the search result is returned. Either way the stored value afterwards is the result. |
| LocalAddress.CachedAddressIsStable | watt-core/src/main/java/com/kitsrc/watt/util/NetUtil.java:161-168 | Once an address is stored, later calls return it whatever the machine reports. |
| LocalAddress.NullIsNotCached | watt-core/src/main/java/com/kitsrc/watt/util/NetUtil.java:161-168 | After a search that found nothing, the next call searches again. |
| LocalAddress.InvalidLocalHostIsCached | watt-core/src/main/java/com/kitsrc/watt/util/NetUtil.java:170-209 | If no candidate is valid, an invalid local host answer is returned and then kept by the cache. |
| LocalAddress.GetLocalIp | watt-core/src/main/java/com/kitsrc/watt/util/NetUtil.java:141-144 | The result is the host address of the local address, or `127.0.0.1` when there is none; the cache is updated as by `getLocalAddress`. |
| LocalAddress.LocalHostWhenNothingFound | watt-core/src/main/java/com/kitsrc/watt/util/NetUtil.java:141-209 | With nothing cached, the search finds nothing exactly when `getLocalHost()` threw and no interface address is valid. Then `getLocalHost` answers `localhost` and `getLocalIp` answers `127.0.0.1`, and the cache stays empty. |
| LocalAddress.LocalIpIsValidIp | watt-core/src/main/java/com/kitsrc/watt/util/NetUtil.java:141-144 | When the local address is valid or absent, the returned IP is one `isValidIp` accepts. |
| LocalAddress.GetLocalHost | watt-core/src/main/java/com/kitsrc/watt/util/NetUtil.java:151-154 | The result is the host name of the local address, or `localhost` when there is none; the cache is updated as by `getLocalAddress`. |
| DefaultProfile.NewProfile | watt-net/src/main/java/com/kitsrc/watt/net/profile/DefaultProfile.java:15-28 | A new profile has no region, format, provider, credential or logger, the default client config and log format, and both flags off. |
| DefaultProfile.GetCredential | watt-net/src/main/java/com/kitsrc/watt/net/profile/DefaultProfile.java:107-112 | The provider is consulted iff there is no credential and there is a provider; its answer, null included, is stored and returned; otherwise nothing changes. |
| DefaultProfile.PresentCredentialIsReturned | watt-net/src/main/java/com/kitsrc/watt/net/profile/DefaultProfile.java:107-112 | A stored credential is returned without consulting the provider. |
| DefaultProfile.FreshCredentialIsKept | watt-net/src/main/java/com/kitsrc/watt/net/profile/DefaultProfile.java:107-112 | A non-null credential from the provider is stored, so the next call returns it without asking again. |
| DefaultProfile.NullFreshIsRetried | watt-net/src/main/java/com/kitsrc/watt/net/profile/DefaultProfile.java:107-112 | A null answer from the provider is not remembered: the next call asks again. |
| DefaultProfile.NoCredentialNoProvider | watt-net/src/main/java/com/kitsrc/watt/net/profile/DefaultProfile.java:107-112 | With neither credential nor provider, the result is null and the profile is unchanged. |
| DefaultProfile.SetCredentialsProvider | watt-net/src/main/java/com/kitsrc/watt/net/profile/DefaultProfile.java:116-121 | An existing credential makes the call a no-op; otherwise the credential becomes an adaptor around the given provider. |
| DefaultProfile.SetCredentialsProviderFrames | watt-net/src/main/java/com/kitsrc/watt/net/profile/DefaultProfile.java:116-121 | No field other than the credential changes. |
| DefaultProfile.AdaptorShadowsProvider | watt-net/src/main/java/com/kitsrc/watt/net/profile/DefaultProfile.java:107-121 | After installing an adaptor, `getCredential` returns it and never consults the credential provider. |
| DefaultProfile.CredentialIsKept | watt-net/src/main/java/com/kitsrc/watt/net/profile/DefaultProfile.java:107-174 | No instance method replaces a credential that is already set. |
| DefaultProfile.CredentialIsKeptByRuns | watt-net/src/main/java/com/kitsrc/watt/net/profile/DefaultProfile.java:107-174 | The same holds for any sequence of instance-method calls. |
| DefaultProfile.FixedFieldsAreKeptByRuns | watt-net/src/main/java/com/kitsrc/watt/net/profile/DefaultProfile.java:96-174 | No sequence of instance-method calls changes the region, the accept format or the credential provider. |
| DefaultProfile.EnableFlags | watt-net/src/main/java/com/kitsrc/watt/net/profile/DefaultProfile.java:135-153 | Each enable call sets its flag, changes nothing else, and is idempotent. |
| DefaultProfile.EnablesCommute | watt-net/src/main/java/com/kitsrc/watt/net/profile/DefaultProfile.java:135-153 | The two enable calls commute. |
| DefaultProfile.FlagsNeverReset | watt-net/src/main/java/com/kitsrc/watt/net/profile/DefaultProfile.java:135-153 | No instance method turns a flag off. |
| DefaultProfile.FlagsOverRuns | watt-net/src/main/java/com/kitsrc/watt/net/profile/DefaultProfile.java:135-153 | After any sequence of calls, a flag is on iff it was on before or its enable call occurs in the sequence. |
| DefaultProfile.SettersFrame | watt-net/src/main/java/com/kitsrc/watt/net/profile/DefaultProfile.java:125-174 | Each setter makes its getter return the new value and leaves every other field as it was. |
| DefaultProfile.SetterLastWins | watt-net/src/main/java/com/kitsrc/watt/net/profile/DefaultProfile.java:125-174 | Setting twice is the same as setting the second value once. |
| ProfileWorld.GetProfile | watt-net/src/main/java/com/kitsrc/watt/net/profile/DefaultProfile.java:44-49 | The returned profile is the installed one, and it is allocated. |
| ProfileWorld.FirstGetProfileAllocates | watt-net/src/main/java/com/kitsrc/watt/net/profile/DefaultProfile.java:44-49 | Before any profile exists the world is well formed, and the first `getProfile()` allocates one blank profile as reference 0 and installs it. |
| ProfileWorld.GetProfileIsStable | watt-net/src/main/java/com/kitsrc/watt/net/profile/DefaultProfile.java:44-49 | A second `getProfile()` returns the same profile and changes nothing. |
| ProfileWorld.GetProfileCreatesOnlyWhenAbsent | watt-net/src/main/java/com/kitsrc/watt/net/profile/DefaultProfile.java:44-49 | An installed profile is returned and nothing changes. Otherwise exactly one blank profile is allocated and installed. |
| ProfileWorld.GetProfileWithProvider | watt-net/src/main/java/com/kitsrc/watt/net/profile/DefaultProfile.java:51-54 | The new profile is installed and returned. |
| ProfileWorld.GetProfileWithKeys | watt-net/src/main/java/com/kitsrc/watt/net/profile/DefaultProfile.java:56-60 | The new profile is installed and returned. |
| ProfileWorld.GetProfileWithToken | watt-net/src/main/java/com/kitsrc/watt/net/profile/DefaultProfile.java:62-67 | The new profile is installed and returned. |
| ProfileWorld.ReplacingOverloads | watt-net/src/main/java/com/kitsrc/watt/net/profile/DefaultProfile.java:51-67 | Each replacing overload installs a profile with the given region and provider, key pair or session keys, and every other field initial. The profile is a fresh object, distinct from the one installed before. Earlier profiles and the endpoint registry are kept unchanged. |
| ProfileWorld.GetProfileAfterReplace | watt-net/src/main/java/com/kitsrc/watt/net/profile/DefaultProfile.java:44-60 | After a replacing overload, `getProfile()` returns the installed profile instead of creating one. |
| ProfileWorld.GetProfileForRegion | watt-net/src/main/java/com/kitsrc/watt/net/profile/DefaultProfile.java:69-71 | The region overload allocates a profile but leaves the installed one in place. |
| ProfileWorld.RegionProfileIsNotInstalled | watt-net/src/main/java/com/kitsrc/watt/net/profile/DefaultProfile.java:69-71 | Its profile has only the region set, is distinct from the installed one, and leaves the installed one unchanged. |
| ProfileWorld.InvokeAliasing | watt-net/src/main/java/com/kitsrc/watt/net/profile/DefaultProfile.java:44-49 | Calls on another profile leave the installed one unchanged. Calls through the installed reference are seen by the next `getProfile()`. |
| ProfileWorld.GetProfileKeepsNoAcceptFormat | watt-net/src/main/java/com/kitsrc/watt/net/profile/DefaultProfile.java:17-71 | No `getProfile` overload creates a profile with an accept format, so `getFormat` stays null for all profiles. |
| ProfileWorld.InvokeKeepsNoAcceptFormat | watt-net/src/main/java/com/kitsrc/watt/net/profile/DefaultProfile.java:101-174 | No instance method sets an accept format on any profile. |
| ProfileWorld.AddEndpoint | watt-net/src/main/java/com/kitsrc/watt/net/profile/DefaultProfile.java:92-94 | The endpoint is filed under its region and product; profiles are untouched. |
| ProfileWorld.AddEndpointLookup | watt-net/src/main/java/com/kitsrc/watt/net/profile/DefaultProfile.java:92-94 | The endpoint is then found under its key, other entries are unchanged, and a later registration for the same key wins. |
| ProfileWorld.DeprecatedAddEndpointForwards | watt-net/src/main/java/com/kitsrc/watt/net/profile/DefaultProfile.java:76-90 | Both deprecated overloads act as the three-argument form: the endpoint name and the expiry flag have no effect. |

## Left out

- Name resolution and the JDK networking classes:
  - `InetAddress`, `InetSocketAddress` and `NetworkInterface` are values.
  - Resolving a host string is a caller-supplied map. An unresolvable host gives an unresolved address.
  - Whether an address is loopback is a field.
- Exceptions of the environment: each `getLocalHost()`, interface and address call either returns or throws. Which one happens is part of the `Environment` value. The log messages written on those paths are not modelled.
- `Enumeration.nextElement` throwing forever without advancing: the enumerations are finite sequences, so an enumeration on which the Java loop would spin cannot be expressed.
- `Enumeration.hasMoreElements` throwing: only `nextElement` and the enumeration getters may throw in the model. A throwing `hasMoreElements` would end the enumeration it belongs to through the enclosing `catch`.
- `Integer.parseInt` and `Long.parseLong` accept only ASCII digits here. Java also accepts other Unicode decimal digits.
- `StringUtil.isBlank` and `StringUtil.isNullStr` are not part of this model. Blank is taken as null or all ASCII whitespace, and "null string" as null or empty. The results of `isIPV4`/`isIPV6` do not depend on this choice, because neither grammar accepts a blank string.
- The `volatile` and `synchronized` qualifiers, and concurrent callers: every call is modelled as atomic.
- The endpoint resolver's `putEndpointEntry` is modelled as a map update keyed by region and product. `DefaultEndpointResolver` is not part of this model.
- `certPath`: it is never read or written in the class.
- The collaborator types are opaque values compared by identity:
  - `ICredentialProvider`, `CredentialsProvider`, `HttpClientConfig`, `FormatType` and `Logger`;
  - `Credential` and `CredentialsBackupCompatibilityAdaptor`.
  - Calling the provider's `fresh()` is a parameter, `issued`, carrying the provider's answer.
- The value of `DEFAULT_LOG_FORMAT`: `LogUtils` is not part of this model.
- ToInetSocketAddress: the host field records the host text passed to the constructor, and none of the following is modelled. Java's `getHostString()` and `getHostName()` may return a different string:
  - for an empty host, `"localhost"`;
  - for a non-canonical IPv4 literal such as `127.1`, the canonical host address;
  - for an IP-literal host, `getHostName()` does a reverse lookup, whose result may be longer than the input.
- ToInetSocketAddress: Java always resolves the empty host to the loopback address, while the caller-supplied resolver map may leave it unresolved.
- Null arguments: `toInetSocketAddress`, `toLong`, `toStringAddress`, `toIpAddress` and `validAddress` take non-null values here, so the `NullPointerException` Java throws for a null argument is not modelled. Several parameters are also non-null here, so storing or passing a null through them is not modelled:
  - the value of `setLogFormat`, `setHttpClientConfig` and `setCredentialsProvider`;
  - `accessKeyId`, `secret` and `stsToken` of the `getProfile` overloads (`ProfileWorld.GetProfileWithKeys`, `ProfileWorld.GetProfileWithToken`);
  - `regionId`, `product`, `endpoint`, `domain` and `endpointName` of the `addEndpoint` overloads (`ProfileWorld.AddEndpoint`, `ProfileWorld.AddEndpointExpiring`, `ProfileWorld.AddEndpointNamed`);
  - Java passes all of these through without a null check. `isIPV4`, `isIPV6` and `isValidIp` do take a possibly-null string.
- The `IClientProfile` interface, and the casts to `InetSocketAddress` in `toStringAddress(SocketAddress)` and `toIpAddress(SocketAddress)`: the model has only socket addresses, so the `ClassCastException` these casts can throw is not modelled.

=== FILE: address_key.dfy ===
/** `NetUtil.toLong`: an IPv4 socket address packed into one `long`, the
    four octets at bit offsets 40, 32, 24 and 16 and the port in the low
    16 bits.

    Java's `long` is a 64-bit two's-complement integer; the model keeps the
    bit pattern as a natural number below 2^64 while shifting and or-ing, and
    reads it back as a signed value at the end. */
module AddressKey {
  import opened Wrappers
  import opened Text
  import opened IpGrammar
  import opened SocketAddresses

  const LONG_MIN: int := -0x8000_0000_0000_0000
  const LONG_MAX: int := 0x7FFF_FFFF_FFFF_FFFF
  const TWO_64: nat := 0x1_0000_0000_0000_0000

  /** `Long.parseLong(s)`. */
  function ParseLong(s: string): (r: Result<int, AddressError>)
    ensures r.Success? ==> LONG_MIN <= r.value <= LONG_MAX
  {
    ParseSigned(s, LONG_MIN, LONG_MAX)
  }

  // ---------------------------------------------------------------------
  // `String.split` with a literal one-character regex

  /** Removes the trailing empty strings, as `split` with limit 0 does. */
  function DropTrailingEmpty(fs: seq<string>): (r: seq<string>)
    ensures r <= fs
    ensures |r| > 0 ==> r[|r| - 1] != ""
    ensures forall k :: |r| <= k < |fs| ==> fs[k] == ""
  {
    if |fs| > 0 && fs[|fs| - 1] == "" then DropTrailingEmpty(fs[..|fs| - 1]) else fs
  }

  /** `s.split(regex)` for a regex matching exactly `sep`: the text itself
      when `sep` does not occur, otherwise the fields between separators
      without the trailing empty ones. */
  function JavaSplit(s: string, sep: char): (r: seq<string>)
    ensures r <= Split(s, sep)
    ensures IndexOf(s, sep) < 0 ==> r == [s]
    ensures IndexOf(s, sep) >= 0 ==> |r| == 0 || r[|r| - 1] != ""
    ensures IndexOf(s, sep) >= 0 ==> forall k :: |r| <= k < |Split(s, sep)| ==> Split(s, sep)[k] == ""
  {
    if IndexOf(s, sep) < 0 then [s] else DropTrailingEmpty(Split(s, sep))
  }

  /** `Long.parseLong(ip[0])`, …, `Long.parseLong(ip[n - 1])` in order: the
      first field that is missing or does not parse decides the error. */
  function ParseFields(ip: seq<string>, n: nat): (r: Result<seq<int>, AddressError>)
    ensures r.Success? <==> n <= |ip| && forall k :: 0 <= k < n ==> ParseLong(ip[k]).Success?
    ensures r.Success? ==> |r.value| == n && forall k :: 0 <= k < n ==> ParseLong(ip[k]) == Success(r.value[k])
    ensures (exists k :: 0 <= k < n && k < |ip| && ParseLong(ip[k]).Failure?) ==> r == Failure(NumberFormat)
    ensures |ip| < n && (forall k :: 0 <= k < |ip| ==> ParseLong(ip[k]).Success?) ==> r == Failure(IndexOutOfBounds)
  {
    if n == 0 then Success([])
    else
      match ParseFields(ip, n - 1)
      case Failure(e) => Failure(e)
      case Success(vs) =>
        if n - 1 < |ip| then
          match ParseLong(ip[n - 1])
          case Failure(e) => Failure(e)
          case Success(v) => Success(vs + [v])
        else
          Failure(IndexOutOfBounds)
  }

  // ---------------------------------------------------------------------
  // 64-bit arithmetic on bit patterns

  function Pow2(k: nat): (r: nat)
    ensures r >= 1
  {
    if k == 0 then 1 else 2 * Pow2(k - 1)
  }

  /** Bit `i` of `x`. */
  predicate Bit(x: nat, i: nat) {
    if i == 0 then x % 2 == 1 else Bit(x / 2, i - 1)
  }

  /** Bitwise or of two bit patterns. */
  function Or(a: nat, b: nat): (r: nat)
    decreases a + b
  {
    if a == 0 then b
    else if b == 0 then a
    else 2 * Or(a / 2, b / 2) + (if a % 2 == 1 || b % 2 == 1 then 1 else 0)
  }

  /** The bit pattern of a `long`. */
  function Unsigned64(v: int): (u: nat)
    ensures u < TWO_64
    ensures LONG_MIN <= v <= LONG_MAX ==> Signed64(u) == v
  {
    v % TWO_64
  }

  /** The `long` with bit pattern `u`. */
  function Signed64(u: nat): (v: int)
    requires u < TWO_64
    ensures LONG_MIN <= v <= LONG_MAX
  {
    if u > LONG_MAX then u - TWO_64 else u
  }

  /** The bit pattern of `v << k` for `0 <= k < 64`. */
  function ShiftLeft(v: int, k: nat): (u: nat)
    requires k < 64
    ensures u < TWO_64
  {
    (Unsigned64(v) * Pow2(k)) % TWO_64
  }

  /** `0 | v0 << 40 | v1 << 32 | v2 << 24 | v3 << 16 | port`, as a bit
      pattern. */
  function Pack(v0: int, v1: int, v2: int, v3: int, port: Port): (u: nat)
    ensures u < TWO_64
  {
    var s0 := ShiftLeft(v0, 40);
    var s1 := ShiftLeft(v1, 32);
    var s2 := ShiftLeft(v2, 24);
    var s3 := ShiftLeft(v3, 16);
    Pow2Values();
    OrBound(0, s0, 64);
    OrBound(Or(0, s0), s1, 64);
    OrBound(Or(Or(0, s0), s1), s2, 64);
    OrBound(Or(Or(Or(0, s0), s1), s2), s3, 64);
    OrBound(Or(Or(Or(Or(0, s0), s1), s2), s3), port, 64);
    Or(Or(Or(Or(Or(0, s0), s1), s2), s3), port)
  }

  /** `toLong(address)`. */
  function ToLong(address: string, resolve: Resolver): (r: Result<int, AddressError>)
    ensures r.Success? ==> LONG_MIN <= r.value <= LONG_MAX
    ensures ToInetSocketAddress(address, resolve).Failure? ==> r == Failure(ToInetSocketAddress(address, resolve).error)
    ensures (ToInetSocketAddress(address, resolve).Success? && ToInetSocketAddress(address, resolve).value.address.None?)
              ==> r == Failure(NullPointer)
  {
    match ToInetSocketAddress(address, resolve)
    case Failure(e) => Failure(e)
    case Success(ad) =>
      match ad.address
      case None => Failure(NullPointer)
      case Some(a) =>
        var ip := JavaSplit(a.hostAddress, '.');
        match ParseFields(ip, 4)
        case Failure(e) => Failure(e)
        case Success(v) => Success(Signed64(Pack(v[0], v[1], v[2], v[3], ad.port)))
  }

  // ---------------------------------------------------------------------
  // The key as arithmetic

  /** The parts a key is made of. */
  datatype KeyParts = KeyParts(o0: nat, o1: nat, o2: nat, o3: nat, port: nat)

  predicate ValidParts(p: KeyParts) {
    p.o0 < 256 && p.o1 < 256 && p.o2 < 256 && p.o3 < 256 && p.port <= MAX_PORT
  }

  /** The key the packing is meant to build: the five parts as digits of a
      mixed-radix number. */
  function Key(p: KeyParts): nat {
    p.o0 * 0x100_0000_0000 + p.o1 * 0x1_0000_0000 + p.o2 * 0x100_0000 + p.o3 * 0x1_0000 + p.port
  }

  /** The parts of a key below 2^48, peeled off from the low end. */
  function PartsOf(key: nat): (p: KeyParts)
    requires key < 0x1_0000_0000_0000
    ensures ValidParts(p)
  {
    var q1 := key / 0x1_0000;
    var q2 := q1 / 0x100;
    var q3 := q2 / 0x100;
    KeyParts(q3 / 0x100, q3 % 0x100, q2 % 0x100, q1 % 0x100, key % 0x1_0000)
  }

  /** The octet values of a dotted IPv4 text and a port. */
  function Ipv4Parts(h: string, port: Port): (p: KeyParts)
    requires Ipv4Fields(h)
    ensures ValidParts(p)
  {
    var fs := Split(h, '.');
    KeyParts(DecimalValue(fs[0]), DecimalValue(fs[1]), DecimalValue(fs[2]), DecimalValue(fs[3]), port)
  }

  // ---------------------------------------------------------------------
  // Proofs

  lemma {:induction false} Pow2Add(a: nat, b: nat)
    ensures Pow2(a + b) == Pow2(a) * Pow2(b)
    decreases a
  {
    if a > 0 {
      Pow2Add(a - 1, b);
      assert Pow2(a + b) == 2 * Pow2(a - 1 + b);
    }
  }

  lemma Pow2Values()
    ensures Pow2(16) == 0x1_0000 && Pow2(24) == 0x100_0000
    ensures Pow2(32) == 0x1_0000_0000 && Pow2(40) == 0x100_0000_0000
    ensures Pow2(64) == TWO_64
  {
    assert Pow2(8) == 0x100;
    Pow2Add(8, 8);
    Pow2Add(16, 8);
    Pow2Add(16, 16);
    Pow2Add(32, 8);
    Pow2Add(32, 32);
  }

  /** Quotient and remainder by 256 are unique. */
  lemma DivModByte(x: int, q: int, r: int)
    requires 0 <= r < 0x100 && x == q * 0x100 + r
    ensures x / 0x100 == q && x % 0x100 == r
  {
  }

  /** Quotient and remainder by 2^16 are unique. */
  lemma DivModPort(x: int, q: int, r: int)
    requires 0 <= r < 0x1_0000 && x == q * 0x1_0000 + r
    ensures x / 0x1_0000 == q && x % 0x1_0000 == r
  {
  }

  lemma {:induction false} ZeroHasNoBits(i: nat)
    ensures !Bit(0, i)
  {
    if i > 0 {
      ZeroHasNoBits(i - 1);
    }
  }

  /** `Or` sets exactly the bits set in either operand. */
  lemma {:induction false} OrBits(a: nat, b: nat, i: nat)
    ensures Bit(Or(a, b), i) <==> Bit(a, i) || Bit(b, i)
    decreases i
  {
    if a == 0 {
      ZeroHasNoBits(i);
    } else if b == 0 {
      ZeroHasNoBits(i);
    } else if i > 0 {
      var bit := if a % 2 == 1 || b % 2 == 1 then 1 else 0;
      assert Or(a, b) / 2 == Or(a / 2, b / 2);
      OrBits(a / 2, b / 2, i - 1);
    }
  }

  /** Or-ing two patterns of `k` bits gives a pattern of `k` bits. */
  lemma {:induction false} OrBound(a: nat, b: nat, k: nat)
    requires a < Pow2(k) && b < Pow2(k)
    ensures Or(a, b) < Pow2(k)
    decreases k
  {
    if a != 0 && b != 0 {
      OrBound(a / 2, b / 2, k - 1);
    }
  }

  /** Or-ing a pattern whose low `k` bits are clear with one of at most `k`
      bits is addition. */
  lemma {:induction false} OrLow(a: nat, b: nat, k: nat)
    requires b < Pow2(k)
    ensures Or(a * Pow2(k), b) == a * Pow2(k) + b
    decreases k
  {
    if k > 0 && a != 0 && b != 0 {
      var p := Pow2(k - 1);
      assert a * Pow2(k) == 2 * (a * p);
      assert (a * Pow2(k)) / 2 == a * p && (a * Pow2(k)) % 2 == 0;
      OrLow(a, b / 2, k - 1);
    }
  }

  /** A shift that does not overflow is a multiplication. */
  lemma ShiftWithoutOverflow(v: nat, k: nat, m: nat)
    requires k < 64 && m == Pow2(k) && v < TWO_64 && v * m < TWO_64
    ensures ShiftLeft(v, k) == v * m
  {
    assert Unsigned64(v) == v;
  }

  /** `OrLow` with the power of two written out. */
  lemma OrLowBy(a: nat, b: nat, k: nat, m: nat)
    requires m == Pow2(k) && b < m
    ensures Or(a * m, b) == a * m + b
  {
    OrLow(a, b, k);
  }

  /** The four shifts of `toLong` do not overflow on octets. */
  lemma OctetShifts(p: KeyParts)
    requires ValidParts(p)
    ensures ShiftLeft(p.o0, 40) == p.o0 * 0x100_0000_0000
    ensures ShiftLeft(p.o1, 32) == p.o1 * 0x1_0000_0000
    ensures ShiftLeft(p.o2, 24) == p.o2 * 0x100_0000
    ensures ShiftLeft(p.o3, 16) == p.o3 * 0x1_0000
  {
    Pow2Values();
    ShiftWithoutOverflow(p.o0, 40, 0x100_0000_0000);
    ShiftWithoutOverflow(p.o1, 32, 0x1_0000_0000);
    ShiftWithoutOverflow(p.o2, 24, 0x100_0000);
    ShiftWithoutOverflow(p.o3, 16, 0x1_0000);
  }

  /** Or-ing the second octet below the first. */
  lemma OrSecondOctet(a: nat, o: nat)
    requires o < 0x100
    ensures Or(a * 0x100_0000_0000, o * 0x1_0000_0000) == (a * 0x100 + o) * 0x1_0000_0000
  {
    Pow2Values();
    OrLowBy(a, o * 0x1_0000_0000, 40, 0x100_0000_0000);
  }

  /** Or-ing the third octet below the first two. */
  lemma OrThirdOctet(a: nat, o: nat)
    requires o < 0x100
    ensures Or(a * 0x1_0000_0000, o * 0x100_0000) == (a * 0x100 + o) * 0x100_0000
  {
    Pow2Values();
    OrLowBy(a, o * 0x100_0000, 32, 0x1_0000_0000);
  }

  /** Or-ing the fourth octet below the first three. */
  lemma OrFourthOctet(a: nat, o: nat)
    requires o < 0x100
    ensures Or(a * 0x100_0000, o * 0x1_0000) == (a * 0x100 + o) * 0x1_0000
  {
    Pow2Values();
    OrLowBy(a, o * 0x1_0000, 24, 0x100_0000);
  }

  /** Or-ing the port below the four octets. */
  lemma OrPort(a: nat, port: Port)
    ensures Or(a * 0x1_0000, port) == a * 0x1_0000 + port
  {
    Pow2Values();
    OrLowBy(a, port, 16, 0x1_0000);
  }

  /** For octets and a port, the shifts and ors compute the key. */
  lemma PackIsKey(p: KeyParts)
    requires ValidParts(p)
    ensures Pack(p.o0, p.o1, p.o2, p.o3, p.port) == Key(p)
  {
    OctetShifts(p);
    var a0 := p.o0;
    var a1 := a0 * 0x100 + p.o1;
    var a2 := a1 * 0x100 + p.o2;
    var a3 := a2 * 0x100 + p.o3;
    var t0 := Or(0, ShiftLeft(p.o0, 40));
    assert t0 == a0 * 0x100_0000_0000;
    var t1 := Or(t0, ShiftLeft(p.o1, 32));
    assert t1 == a1 * 0x1_0000_0000 by {
      OrSecondOctet(a0, p.o1);
    }
    var t2 := Or(t1, ShiftLeft(p.o2, 24));
    assert t2 == a2 * 0x100_0000 by {
      OrThirdOctet(a1, p.o2);
    }
    var t3 := Or(t2, ShiftLeft(p.o3, 16));
    assert t3 == a3 * 0x1_0000 by {
      OrFourthOctet(a2, p.o3);
    }
    OrPort(a3, p.port);
  }

  /** Keys lie in `0 .. 2^48 - 1`, so they are non-negative `long`s. */
  lemma KeyBound(p: KeyParts)
    requires ValidParts(p)
    ensures Key(p) < 0x1_0000_0000_0000
  {
  }

  /** A key determines its parts. */
  lemma KeyDecodes(p: KeyParts)
    requires ValidParts(p)
    ensures PartsOf(Key(p)) == p
  {
    var q3 := p.o0 * 0x100 + p.o1;
    var q2 := q3 * 0x100 + p.o2;
    var q1 := q2 * 0x100 + p.o3;
    assert Key(p) == q1 * 0x1_0000 + p.port;
    DivModPort(Key(p), q1, p.port);
    DivModByte(q1, q2, p.o3);
    DivModByte(q2, q3, p.o2);
    DivModByte(q3, p.o0, p.o1);
  }

  /** Every number below 2^48 is the key of exactly its parts: the packing
      leaves no gap. */
  lemma KeyCovers(key: nat)
    requires key < 0x1_0000_0000_0000
    ensures Key(PartsOf(key)) == key
  {
    var q1 := key / 0x1_0000;
    var q2 := q1 / 0x100;
    var q3 := q2 / 0x100;
    assert key == q1 * 0x1_0000 + key % 0x1_0000;
    assert q1 == q2 * 0x100 + q1 % 0x100;
    assert q2 == q3 * 0x100 + q2 % 0x100;
    assert q3 == q3 / 0x100 * 0x100 + q3 % 0x100;
  }

  /** Different addresses have different keys. */
  lemma KeyInjective(p: KeyParts, q: KeyParts)
    requires ValidParts(p) && ValidParts(q) && Key(p) == Key(q)
    ensures p == q
  {
    KeyDecodes(p);
    KeyDecodes(q);
  }

  /** Keys order addresses by octets, then port. */
  lemma KeyOrder(p: KeyParts, q: KeyParts)
    requires ValidParts(p) && ValidParts(q)
    ensures Key(p) < Key(q) <==>
      || p.o0 < q.o0
      || (p.o0 == q.o0 && p.o1 < q.o1)
      || (p.o0 == q.o0 && p.o1 == q.o1 && p.o2 < q.o2)
      || (p.o0 == q.o0 && p.o1 == q.o1 && p.o2 == q.o2 && p.o3 < q.o3)
      || (p.o0 == q.o0 && p.o1 == q.o1 && p.o2 == q.o2 && p.o3 == q.o3 && p.port < q.port)
  {
  }

  /** Splitting a dotted IPv4 text with Java's `split` gives its four
      fields. */
  lemma Ipv4JavaSplit(h: string)
    requires Ipv4Fields(h)
    ensures JavaSplit(h, '.') == Split(h, '.')
  {
    var fs := Split(h, '.');
    assert fs[3] != "";
  }

  /** Each field of a dotted IPv4 text parses as its decimal value. */
  lemma Ipv4FieldsParse(h: string)
    requires Ipv4Fields(h)
    ensures ParseFields(Split(h, '.'), 4) == Success(
      [Ipv4Parts(h, 0).o0, Ipv4Parts(h, 0).o1, Ipv4Parts(h, 0).o2, Ipv4Parts(h, 0).o3])
  {
    var fs := Split(h, '.');
    var values := [DecimalValue(fs[0]), DecimalValue(fs[1]), DecimalValue(fs[2]), DecimalValue(fs[3])];
    forall k | 0 <= k < 4
      ensures ParseLong(fs[k]) == Success(values[k])
    {
      ParseSignedOfDigits(fs[k], LONG_MIN, LONG_MAX);
    }
    var r := ParseFields(fs, 4);
    assert r.Success?;
    assert r.value == values;
  }

  /** When the host resolves to a dotted IPv4 address, `toLong` is the key
      of its octets and the port. */
  lemma ToLongOfIpv4(address: string, resolve: Resolver)
    requires ToInetSocketAddress(address, resolve).Success?
    requires ToInetSocketAddress(address, resolve).value.address.Some?
    requires Ipv4Fields(ToInetSocketAddress(address, resolve).value.address.value.hostAddress)
    ensures var ad := ToInetSocketAddress(address, resolve).value;
            ToLong(address, resolve) == Success(Key(Ipv4Parts(ad.address.value.hostAddress, ad.port)))
  {
    var ad := ToInetSocketAddress(address, resolve).value;
    var h := ad.address.value.hostAddress;
    var p := Ipv4Parts(h, ad.port);
    Ipv4JavaSplit(h);
    Ipv4FieldsParse(h);
    PackIsKey(p);
    KeyBound(p);
  }

  /** An IPv6 host address has no dot, so its only field holds colons and
      `Long.parseLong` throws. */
  lemma ToLongRejectsIpv6(address: string, resolve: Resolver)
    requires ToInetSocketAddress(address, resolve).Success?
    requires ToInetSocketAddress(address, resolve).value.address.Some?
    requires IsIPv6(Some(ToInetSocketAddress(address, resolve).value.address.value.hostAddress))
    ensures ToLong(address, resolve) == Failure(NumberFormat)
  {
    var h := ToInetSocketAddress(address, resolve).value.address.value.hostAddress;
    IPv6HasNoDot(h);
    var k := Ipv6HasColon(h);
    ParseSignedRejectsNonDigit(h, k, LONG_MIN, LONG_MAX);
    var ip := JavaSplit(h, '.');
    assert ip == [h];
    assert ParseLong(ip[0]).Failure?;
  }

  /** A host address with fewer than four dot-separated numbers throws
      `ArrayIndexOutOfBoundsException`. */
  lemma ToLongRejectsShortAddress(address: string, resolve: Resolver)
    requires ToInetSocketAddress(address, resolve).Success?
    requires ToInetSocketAddress(address, resolve).value.address.Some?
    requires var ip := JavaSplit(ToInetSocketAddress(address, resolve).value.address.value.hostAddress, '.');
             |ip| < 4 && forall k :: 0 <= k < |ip| ==> ParseLong(ip[k]).Success?
    ensures ToLong(address, resolve) == Failure(IndexOutOfBounds)
  {
  }
}

=== FILE: default_profile.dfy ===
/** The instance state of `DefaultProfile` and its instance methods.

    The collaborating types (`Credential`, the two provider interfaces,
    `HttpClientConfig`, `FormatType`, `Logger`) are not part of this model;
    each is a value that only carries its identity. */
module DefaultProfile {
  import opened Wrappers

  /** An `ICredentialProvider`; what its `fresh()` returns is an input of
      `GetCredential`. */
  datatype CredentialProvider = CredentialProvider(id: nat)

  /** A `CredentialsProvider`, the interface `setCredentialsProvider` takes. */
  datatype CredentialsProvider = CredentialsProvider(id: nat)

  /** A `Credential` as the profile builds it: from a key pair, from a key
      pair with a security token, or as the
      `CredentialsBackupCompatibilityAdaptor` over a `CredentialsProvider`;
      `Issued` stands for any other credential a provider's `fresh()` hands
      out. */
  datatype Credential =
    | KeyPair(accessKeyId: string, secret: string)
    | SessionKeys(accessKeyId: string, secret: string, stsToken: string)
    | BackupAdaptor(provider: CredentialsProvider)
    | Issued(id: nat)

  /** `HttpClientConfig`: the object `HttpClientConfig.getDefault()` returns,
      or another one. */
  datatype HttpClientConfig = DefaultConfig | Config(id: nat)

  datatype FormatType = FormatType(name: string)

  datatype Logger = Logger(name: string)

  /** `LogUtils.DEFAULT_LOG_FORMAT`, or a format set later. */
  datatype LogFormat = DefaultLogFormat | Format(text: string)

  /** The fields of a `DefaultProfile`; `null` is `None`. */
  datatype Profile = Profile(
    regionId: Option<string>,
    acceptFormat: Option<FormatType>,
    icredential: Option<CredentialProvider>,
    credential: Option<Credential>,
    httpClientConfig: HttpClientConfig,
    usingInternalLocationService: bool,
    usingVpcEndpoint: bool,
    logger: Option<Logger>,
    logFormat: LogFormat)

  // ---------------------------------------------------------------------
  // Constructors

  /** `new DefaultProfile()`: every field at its initializer. */
  function NewProfile(): (p: Profile)
    ensures p.regionId.None? && p.icredential.None? && p.credential.None?
    ensures p.acceptFormat.None? && p.httpClientConfig == DefaultConfig && p.logFormat == DefaultLogFormat
    ensures !p.usingInternalLocationService && !p.usingVpcEndpoint && p.logger.None?
  {
    Profile(None, None, None, None, DefaultConfig, false, false, None, DefaultLogFormat)
  }

  /** `new DefaultProfile(regionId)`. */
  function NewProfileForRegion(regionId: Option<string>): Profile {
    NewProfile().(regionId := regionId)
  }

  /** `new DefaultProfile(regionId, credential)`. */
  function NewProfileWithCredential(regionId: Option<string>, credential: Credential): Profile {
    NewProfile().(credential := Some(credential), regionId := regionId)
  }

  /** `new DefaultProfile(region, icredential)`. */
  function NewProfileWithProvider(regionId: Option<string>, icredential: Option<CredentialProvider>): Profile {
    NewProfile().(regionId := regionId, icredential := icredential)
  }

  // ---------------------------------------------------------------------
  // Instance methods

  /** The outcome of `getCredential()`: the credential returned, the profile
      afterwards, and whether the provider's `fresh()` was called. */
  datatype CredentialRead = CredentialRead(credential: Option<Credential>, profile: Profile, consulted: bool)

  /** `getCredential()`: with no credential but a provider, store and return
      what `fresh()` returns (`issued` is that value, possibly null). */
  function GetCredential(p: Profile, issued: Option<Credential>): (r: CredentialRead)
    ensures r.consulted <==> p.credential.None? && p.icredential.Some?
    ensures r.credential == r.profile.credential
    ensures !r.consulted ==> r.profile == p
    ensures r.consulted ==> r.credential == issued && r.profile == p.(credential := issued)
  {
    if p.credential.None? && p.icredential.Some? then
      var p' := p.(credential := issued);
      CredentialRead(p'.credential, p', true)
    else
      CredentialRead(p.credential, p, false)
  }

  /** `setCredentialsProvider(provider)`: first writer wins. */
  function SetCredentialsProvider(p: Profile, provider: CredentialsProvider): (r: Profile)
    ensures p.credential.Some? ==> r == p
    ensures p.credential.None? ==> r.credential == Some(BackupAdaptor(provider))
  {
    if p.credential.Some? then p else p.(credential := Some(BackupAdaptor(provider)))
  }

  function SetHttpClientConfig(p: Profile, config: HttpClientConfig): Profile {
    p.(httpClientConfig := config)
  }

  function EnableUsingInternalLocationService(p: Profile): Profile {
    p.(usingInternalLocationService := true)
  }

  function EnableUsingVpcEndpoint(p: Profile): Profile {
    p.(usingVpcEndpoint := true)
  }

  function SetLogger(p: Profile, logger: Option<Logger>): Profile {
    p.(logger := logger)
  }

  function SetLogFormat(p: Profile, format: LogFormat): Profile {
    p.(logFormat := format)
  }

  /** The state-changing instance methods, as values. */
  datatype Op =
    | GetCredentialOp(issued: Option<Credential>)
    | SetCredentialsProviderOp(provider: CredentialsProvider)
    | SetHttpClientConfigOp(config: HttpClientConfig)
    | EnableInternalLocationServiceOp
    | EnableVpcEndpointOp
    | SetLoggerOp(logger: Option<Logger>)
    | SetLogFormatOp(format: LogFormat)

  function Apply(p: Profile, op: Op): Profile {
    match op
    case GetCredentialOp(issued) => GetCredential(p, issued).profile
    case SetCredentialsProviderOp(provider) => SetCredentialsProvider(p, provider)
    case SetHttpClientConfigOp(config) => SetHttpClientConfig(p, config)
    case EnableInternalLocationServiceOp => EnableUsingInternalLocationService(p)
    case EnableVpcEndpointOp => EnableUsingVpcEndpoint(p)
    case SetLoggerOp(logger) => SetLogger(p, logger)
    case SetLogFormatOp(format) => SetLogFormat(p, format)
  }

  /** A sequence of instance method calls, in order. */
  function Run(p: Profile, ops: seq<Op>): Profile
    decreases |ops|
  {
    if |ops| == 0 then p else Run(Apply(p, ops[0]), ops[1..])
  }

  // ---------------------------------------------------------------------
  // The credential slot

  /** A credential, once present, is returned as is and `fresh()` is not
      called. */
  lemma PresentCredentialIsReturned(p: Profile, issued: Option<Credential>)
    requires p.credential.Some?
    ensures GetCredential(p, issued) == CredentialRead(p.credential, p, false)
  {
  }

  /** The first read after construction with a provider stores what
      `fresh()` returns; when that is non-null, every later read returns it
      without calling `fresh()` again. */
  lemma FreshCredentialIsKept(p: Profile, issued: Option<Credential>, later: Option<Credential>)
    requires p.credential.None? && p.icredential.Some? && issued.Some?
    ensures var first := GetCredential(p, issued);
            first.credential == issued && first.consulted
            && GetCredential(first.profile, later) == CredentialRead(issued, first.profile, false)
  {
  }

  /** A `fresh()` that returns null leaves the slot empty, so the next read
      asks the provider again. */
  lemma NullFreshIsRetried(p: Profile, later: Option<Credential>)
    requires p.credential.None? && p.icredential.Some?
    ensures var first := GetCredential(p, None);
            first.credential.None? && GetCredential(first.profile, later).consulted
  {
  }

  /** With neither credential nor provider a read returns null and changes
      nothing. */
  lemma NoCredentialNoProvider(p: Profile, issued: Option<Credential>)
    requires p.credential.None? && p.icredential.None?
    ensures GetCredential(p, issued) == CredentialRead(None, p, false)
  {
  }

  /** After `setCredentialsProvider` on an empty slot, reads return the
      adaptor and never consult the construction-time provider. */
  lemma AdaptorShadowsProvider(p: Profile, provider: CredentialsProvider, issued: Option<Credential>)
    requires p.credential.None?
    ensures var q := SetCredentialsProvider(p, provider);
            GetCredential(q, issued) == CredentialRead(Some(BackupAdaptor(provider)), q, false)
  {
  }

  /** `setCredentialsProvider` changes the credential slot and nothing
      else. */
  lemma SetCredentialsProviderFrames(p: Profile, provider: CredentialsProvider)
    ensures SetCredentialsProvider(p, provider).(credential := p.credential) == p
  {
  }

  /** No instance method replaces or clears a credential that is present. */
  lemma CredentialIsKept(p: Profile, op: Op)
    requires p.credential.Some?
    ensures Apply(p, op).credential == p.credential
  {
  }

  /** Over any run, a present credential stays as it is. */
  lemma {:induction false} CredentialIsKeptByRuns(p: Profile, ops: seq<Op>)
    requires p.credential.Some?
    ensures Run(p, ops).credential == p.credential
    decreases |ops|
  {
    if |ops| > 0 {
      CredentialIsKept(p, ops[0]);
      CredentialIsKeptByRuns(Apply(p, ops[0]), ops[1..]);
    }
  }

  /** Over any run, the region, the provider and the accept format never
      change: no instance method writes them. */
  lemma {:induction false} FixedFieldsAreKeptByRuns(p: Profile, ops: seq<Op>)
    ensures Run(p, ops).regionId == p.regionId
    ensures Run(p, ops).icredential == p.icredential
    ensures Run(p, ops).acceptFormat == p.acceptFormat
    decreases |ops|
  {
    if |ops| > 0 {
      FixedFieldsAreKeptByRuns(Apply(p, ops[0]), ops[1..]);
    }
  }

  // ---------------------------------------------------------------------
  // Flags

  /** Each enable sets its own flag, leaves everything else, and a second
      call changes nothing. */
  lemma EnableFlags(p: Profile)
    ensures var q := EnableUsingInternalLocationService(p);
            q.usingInternalLocationService && q.(usingInternalLocationService := p.usingInternalLocationService) == p
            && EnableUsingInternalLocationService(q) == q
    ensures var q := EnableUsingVpcEndpoint(p);
            q.usingVpcEndpoint && q.(usingVpcEndpoint := p.usingVpcEndpoint) == p
            && EnableUsingVpcEndpoint(q) == q
  {
  }

  /** The two enables commute. */
  lemma EnablesCommute(p: Profile)
    ensures EnableUsingVpcEndpoint(EnableUsingInternalLocationService(p))
         == EnableUsingInternalLocationService(EnableUsingVpcEndpoint(p))
  {
  }

  /** No instance method turns a flag off. */
  lemma FlagsNeverReset(p: Profile, op: Op)
    ensures p.usingInternalLocationService ==> Apply(p, op).usingInternalLocationService
    ensures p.usingVpcEndpoint ==> Apply(p, op).usingVpcEndpoint
  {
  }

  /** Over any run, a flag that is on stays on, and a flag is on at the end
      exactly when it was on at the start or its enable was called. */
  lemma {:induction false} FlagsOverRuns(p: Profile, ops: seq<Op>)
    ensures Run(p, ops).usingInternalLocationService
        <==> p.usingInternalLocationService || EnableInternalLocationServiceOp in ops
    ensures Run(p, ops).usingVpcEndpoint
        <==> p.usingVpcEndpoint || EnableVpcEndpointOp in ops
    decreases |ops|
  {
    if |ops| > 0 {
      FlagsOverRuns(Apply(p, ops[0]), ops[1..]);
      assert ops == [ops[0]] + ops[1..];
    }
  }

  // ---------------------------------------------------------------------
  // Setters and getters

  /** Each setter changes its own field only, and the getter returns what
      was set. */
  lemma SettersFrame(p: Profile, config: HttpClientConfig, logger: Option<Logger>, format: LogFormat)
    ensures SetHttpClientConfig(p, config).httpClientConfig == config
    ensures SetHttpClientConfig(p, config).(httpClientConfig := p.httpClientConfig) == p
    ensures SetLogger(p, logger).logger == logger
    ensures SetLogger(p, logger).(logger := p.logger) == p
    ensures SetLogFormat(p, format).logFormat == format
    ensures SetLogFormat(p, format).(logFormat := p.logFormat) == p
  {
  }

  /** The last call of a setter decides its field. */
  lemma SetterLastWins(p: Profile, c1: HttpClientConfig, c2: HttpClientConfig, f1: LogFormat, f2: LogFormat)
    ensures SetHttpClientConfig(SetHttpClientConfig(p, c1), c2) == SetHttpClientConfig(p, c2)
    ensures SetLogFormat(SetLogFormat(p, f1), f2) == SetLogFormat(p, f2)
  {
  }
}

=== FILE: ip_grammar.dfy ===
/** The two address grammars of `NetUtil.isIPV4` / `NetUtil.isIPV6`.

    The patterns are `^((25[0-5]|2[0-4]\d|[01]?\d\d?)\.){3}(25[0-5]|2[0-4]\d|[01]?\d\d?)$`
    and `^([\da-fA-F]{1,4}:){7}[\da-fA-F]{1,4}$`, applied with `Matcher.find`
    after a blank check. The language of `(T sep){n} T` is defined as the
    regular expression defines it (`InRegexLanguage`, any choice of separator
    positions), proved equal to a first-separator parse (`Repeated`) that the
    rest of the model uses, and proved equal again to a field-based
    description (`Ipv4Fields`, `Ipv6Fields`). */
module IpGrammar {
  import opened Wrappers
  import opened Text

  /** One alternative of `25[0-5]|2[0-4]\d|[01]?\d\d?`, matched exactly. */
  predicate IsOctetToken(g: string) {
    || (|g| == 3 && g[0] == '2' && g[1] == '5' && '0' <= g[2] <= '5')
    || (|g| == 3 && g[0] == '2' && '0' <= g[1] <= '4' && IsDigit(g[2]))
    || (|g| == 1 && IsDigit(g[0]))
    || (|g| == 2 && IsDigit(g[0]) && IsDigit(g[1]))
    || (|g| == 3 && (g[0] == '0' || g[0] == '1') && IsDigit(g[1]) && IsDigit(g[2]))
  }

  /** `[\da-fA-F]{1,4}`, matched exactly. */
  predicate IsHexGroup(g: string) {
    1 <= |g| <= 4 && forall i :: 0 <= i < |g| ==> IsHexDigit(g[i])
  }

  /** The token languages of the two patterns. */
  datatype TokenKind = Octet | HexGroup

  predicate IsToken(kind: TokenKind, g: string) {
    match kind
    case Octet => IsOctetToken(g)
    case HexGroup => IsHexGroup(g)
  }

  /** The separators of the two patterns; neither is a hex digit. */
  predicate IsSeparator(sep: char) {
    sep == '.' || sep == ':'
  }

  /** The language of `(T sep){n} T` for the token language `T` of `kind`:
      some separator position splits off a token, and the rest is in the
      language for `n - 1`. A backtracking matcher may try every such
      position. */
  predicate InRegexLanguage(s: string, n: nat, sep: char, kind: TokenKind)
    decreases n
  {
    if n == 0 then IsToken(kind, s)
    else exists i {:trigger IsToken(kind, s[..i])} ::
      0 <= i < |s| && s[i] == sep && IsToken(kind, s[..i]) && InRegexLanguage(s[i + 1..], n - 1, sep, kind)
  }

  /** `(T sep){n} T` parsed at the first separator each time. */
  predicate Repeated(s: string, n: nat, sep: char, kind: TokenKind)
    decreases n
  {
    if n == 0 then IsToken(kind, s)
    else
      var i := IndexOf(s, sep);
      0 <= i && IsToken(kind, s[..i]) && Repeated(s[i + 1..], n - 1, sep, kind)
  }

  /** All fields of a split are tokens of `kind`. */
  predicate AllTokens(fs: seq<string>, kind: TokenKind) {
    forall k :: 0 <= k < |fs| ==> IsToken(kind, fs[k])
  }

  /** `s` cut at every `sep` gives `n + 1` fields, all tokens of `kind`;
      the same strings as `Repeated` and `InRegexLanguage` accept
      (`RepeatedIsSplit`, `BodyIsRegexLanguage`). */
  predicate TokenFields(s: string, n: nat, sep: char, kind: TokenKind) {
    var fs := Split(s, sep);
    |fs| == n + 1 && AllTokens(fs, kind)
  }

  /** The two compiled patterns, `IPV4_PATTERN` and `IPV6_PATTERN`. */
  datatype Pattern = Ipv4Pattern | Ipv6Pattern

  /** The pattern between its `^` and `$` anchors, matched exactly. */
  predicate Body(pattern: Pattern, s: string) {
    match pattern
    case Ipv4Pattern => TokenFields(s, 3, '.', Octet)
    case Ipv6Pattern => TokenFields(s, 7, ':', HexGroup)
  }

  /** The line terminators of `java.util.regex` (UNIX_LINES off). */
  predicate IsLineTerminator(c: char) {
    c == '\n' || c == '\r' || c == '\U{85}' || c == '\U{2028}' || c == '\U{2029}'
  }

  predicate EndsWithLineTerminator(s: string) {
    |s| >= 1 && IsLineTerminator(s[|s| - 1])
  }

  /** Where `$` (MULTILINE off) matches: at the end of input, or before one
      final line terminator, where `\r\n` counts as one terminator and `$`
      never falls between `\r` and `\n`. */
  predicate DollarAt(s: string, r: nat) {
    || r == |s|
    || (r == |s| - 1 && IsLineTerminator(s[r]) && !(s[r] == '\n' && r >= 1 && s[r - 1] == '\r'))
    || (r == |s| - 2 && s[r] == '\r' && s[r + 1] == '\n')
  }

  /** The body matches `s` from its start up to `r`, and `$` holds at `r`. */
  predicate MatchEndsAt(pattern: Pattern, s: string, r: nat) {
    r <= |s| && DollarAt(s, r) && Body(pattern, s[..r])
  }

  /** `Matcher.find` of `^body$`: `^` pins the start, the body is matched
      exactly, and `$` must hold where it ends, which is one of the last
      three positions. */
  predicate DollarFind(pattern: Pattern, s: string) {
    || MatchEndsAt(pattern, s, |s|)
    || (|s| >= 1 && MatchEndsAt(pattern, s, |s| - 1))
    || (|s| >= 2 && MatchEndsAt(pattern, s, |s| - 2))
  }

  /** The one position where a body can end in a successful find: before a
      final `\r\n`, else before a final line terminator, else at the end. */
  function BodyEnd(s: string): (r: nat)
    ensures r <= |s| && DollarAt(s, r)
    ensures r == |s| || r == |s| - 1 || r == |s| - 2
    ensures r < |s| ==> EndsWithLineTerminator(s)
  {
    if |s| >= 2 && s[|s| - 2] == '\r' && s[|s| - 1] == '\n' then |s| - 2
    else if EndsWithLineTerminator(s) then |s| - 1
    else |s|
  }

  /** `DollarFind` tried at `BodyEnd` only; equal to it (`DollarFindAtBodyEnd`),
      because a body never ends in a line terminator. */
  predicate AnchoredFind(pattern: Pattern, s: string) {
    Body(pattern, s[..BodyEnd(s)])
  }

  /** Whitespace in the sense of `Character.isWhitespace`, restricted to ASCII. */
  predicate IsWhitespace(c: char) {
    c == ' ' || '\t' <= c <= '\r' || '\U{1C}' <= c <= '\U{1F}'
  }

  /** `StringUtil.isBlank`: null, or nothing but whitespace. */
  predicate IsBlank(data: Option<string>) {
    data.None? || forall i :: 0 <= i < |data.value| ==> IsWhitespace(data.value[i])
  }

  /** `NetUtil.isMatch`. */
  predicate IsMatch(data: Option<string>, pattern: Pattern) {
    if IsBlank(data) then false else AnchoredFind(pattern, data.value)
  }

  /** `NetUtil.isIPV4`. */
  predicate IsIPv4(addr: Option<string>) {
    IsMatch(addr, Ipv4Pattern)
  }

  /** `NetUtil.isIPV6`. */
  predicate IsIPv6(addr: Option<string>) {
    IsMatch(addr, Ipv6Pattern)
  }

  // ---------------------------------------------------------------------
  // Field-based descriptions of the two grammars

  /** An IPv4 field: one to three decimal digits whose value is at most 255;
      leading zeros allowed. */
  predicate IsOctetField(f: string) {
    1 <= |f| <= 3 && AllDigits(f) && DecimalValue(f) <= 255
  }

  /** Exactly four dot-separated octet fields. */
  predicate Ipv4Fields(s: string) {
    var fs := Split(s, '.');
    |fs| == 4 && forall k :: 0 <= k < 4 ==> IsOctetField(fs[k])
  }

  /** Exactly eight colon-separated groups of one to four hex digits. */
  predicate Ipv6Fields(s: string) {
    var fs := Split(s, ':');
    |fs| == 8 && forall k :: 0 <= k < 8 ==> IsHexGroup(fs[k])
  }

  // ---------------------------------------------------------------------
  // Proofs

  lemma ThreeDigitValue(g: string)
    requires |g| == 3 && AllDigits(g)
    ensures DecimalValue(g) == DigitValue(g[0]) * 100 + DigitValue(g[1]) * 10 + DigitValue(g[2])
  {
    var g2 := g[..2];
    var g1 := g2[..1];
    assert g[..|g| - 1] == g2 && g2[|g2| - 1] == g[1] && g1[0] == g[0];
    assert g2[..|g2| - 1] == g1;
    assert g1[..|g1| - 1] == [];
    assert DecimalValue(g1) == DigitValue(g[0]);
    assert DecimalValue(g2) == DigitValue(g[0]) * 10 + DigitValue(g[1]);
  }

  /** The pattern's alternation accepts exactly the one-to-three digit
      strings of value at most 255. */
  lemma OctetTokenIsOctetField(g: string)
    ensures IsOctetToken(g) <==> IsOctetField(g)
  {
    if |g| == 1 && AllDigits(g) {
      assert g[..0] == [];
      assert DecimalValue(g) == DigitValue(g[0]);
    } else if |g| == 2 && AllDigits(g) {
      var g1 := g[..1];
      assert g1[..|g1| - 1] == [];
      assert DecimalValue(g1) == DigitValue(g[0]);
      assert DecimalValue(g) == DigitValue(g[0]) * 10 + DigitValue(g[1]);
    } else if |g| == 3 && AllDigits(g) {
      ThreeDigitValue(g);
    }
  }

  /** Every token is a non-empty string of hex digits, so it starts with a
      non-blank character and holds no separator. */
  lemma TokenFacts(kind: TokenKind, g: string)
    requires IsToken(kind, g)
    ensures |g| >= 1 && forall i :: 0 <= i < |g| ==> IsHexDigit(g[i])
    ensures !IsWhitespace(g[0])
  {
  }

  /** A token followed by a separator ends at the first separator. */
  lemma TokenEndsAtFirstSeparator(s: string, i: nat, sep: char, kind: TokenKind)
    requires IsSeparator(sep)
    requires i < |s| && s[i] == sep && IsToken(kind, s[..i])
    ensures IndexOf(s, sep) == i
  {
    TokenFacts(kind, s[..i]);
    forall j | 0 <= j < i
      ensures s[j] != sep
    {
      assert s[j] == s[..i][j];
    }
    IndexOfFirst(s, sep, i);
  }

  lemma {:induction false} RegexToRepeated(s: string, n: nat, sep: char, kind: TokenKind)
    requires IsSeparator(sep) && InRegexLanguage(s, n, sep, kind)
    ensures Repeated(s, n, sep, kind)
    decreases n
  {
    if n > 0 {
      var i := RegexSplitPoint(s, n, sep, kind);
      TokenEndsAtFirstSeparator(s, i, sep, kind);
      RegexToRepeated(s[i + 1..], n - 1, sep, kind);
      RepeatedStep(s, i, n, sep, kind);
    }
  }

  /** A separator position the regex language splits at. */
  lemma RegexSplitPoint(s: string, n: nat, sep: char, kind: TokenKind) returns (i: nat)
    requires n > 0 && InRegexLanguage(s, n, sep, kind)
    ensures i < |s| && s[i] == sep && IsToken(kind, s[..i]) && InRegexLanguage(s[i + 1..], n - 1, sep, kind)
  {
    i :| 0 <= i < |s| && s[i] == sep && IsToken(kind, s[..i]) && InRegexLanguage(s[i + 1..], n - 1, sep, kind);
  }

  /** A token up to the first separator, then `n - 1` more. */
  lemma RepeatedStep(s: string, i: nat, n: nat, sep: char, kind: TokenKind)
    requires n > 0 && i < |s| && IndexOf(s, sep) == i
    requires IsToken(kind, s[..i]) && Repeated(s[i + 1..], n - 1, sep, kind)
    ensures Repeated(s, n, sep, kind)
  {
  }

  lemma {:induction false} RepeatedToRegex(s: string, n: nat, sep: char, kind: TokenKind)
    requires Repeated(s, n, sep, kind)
    ensures InRegexLanguage(s, n, sep, kind)
    decreases n
  {
    if n > 0 {
      var i := IndexOf(s, sep);
      RepeatedToRegex(s[i + 1..], n - 1, sep, kind);
      assert IsToken(kind, s[..i]);
    }
  }

  /** Because no token holds its separator, the only separator position a
      matcher can use is the first one: the regular language of
      `(T sep){n} T` is exactly what the first-separator parse accepts. */
  lemma RegexLanguageIsRepeated(s: string, n: nat, sep: char, kind: TokenKind)
    requires IsSeparator(sep)
    ensures InRegexLanguage(s, n, sep, kind) <==> Repeated(s, n, sep, kind)
  {
    if InRegexLanguage(s, n, sep, kind) {
      RegexToRepeated(s, n, sep, kind);
    }
    if Repeated(s, n, sep, kind) {
      RepeatedToRegex(s, n, sep, kind);
    }
  }

  /** A list headed by a token is all tokens exactly when its tail is. */
  lemma ConsOfTokens(h: string, t: seq<string>, kind: TokenKind)
    ensures IsToken(kind, h) && AllTokens(t, kind) <==> AllTokens([h] + t, kind)
  {
    var u := [h] + t;
    assert u[0] == h;
    if IsToken(kind, h) && AllTokens(t, kind) {
      forall k | 0 < k < |u|
        ensures IsToken(kind, u[k])
      {
        assert u[k] == t[k - 1];
      }
    }
    if AllTokens(u, kind) {
      forall k | 0 <= k < |t|
        ensures IsToken(kind, t[k])
      {
        assert u[k + 1] == t[k];
      }
    }
  }

  /** A string matches `(T sep){n} T` exactly when splitting it at `sep`
      gives `n + 1` fields, all tokens. */
  lemma {:induction false} RepeatedIsSplit(s: string, n: nat, sep: char, kind: TokenKind)
    requires IsSeparator(sep)
    ensures Repeated(s, n, sep, kind) <==> TokenFields(s, n, sep, kind)
    decreases n
  {
    var i := IndexOf(s, sep);
    if i < 0 {
      SplitNoSeparator(s, n, sep, kind);
    } else if n == 0 {
      SplitSeparatorInToken(s, sep, kind);
    } else {
      RepeatedIsSplit(s[i + 1..], n - 1, sep, kind);
      SplitStep(s, n, sep, kind);
    }
  }

  lemma SplitNoSeparator(s: string, n: nat, sep: char, kind: TokenKind)
    requires IndexOf(s, sep) < 0
    ensures Repeated(s, n, sep, kind) <==> |Split(s, sep)| == n + 1 && AllTokens(Split(s, sep), kind)
  {
    assert Split(s, sep) == [s];
    assert [s][0] == s;
  }

  lemma SplitSeparatorInToken(s: string, sep: char, kind: TokenKind)
    requires IsSeparator(sep) && IndexOf(s, sep) >= 0
    ensures !Repeated(s, 0, sep, kind) && |Split(s, sep)| > 1
  {
    var i := IndexOf(s, sep);
    assert Split(s, sep) == [s[..i]] + Split(s[i + 1..], sep);
    if IsToken(kind, s) {
      TokenFacts(kind, s);
    }
  }

  /** One step of `RepeatedIsSplit`: a token and a separator in front. */
  lemma SplitStep(s: string, n: nat, sep: char, kind: TokenKind)
    requires n > 0 && IndexOf(s, sep) >= 0
    requires var rest := s[IndexOf(s, sep) + 1..];
      Repeated(rest, n - 1, sep, kind) <==> |Split(rest, sep)| == n && AllTokens(Split(rest, sep), kind)
    ensures Repeated(s, n, sep, kind) <==> |Split(s, sep)| == n + 1 && AllTokens(Split(s, sep), kind)
  {
    var i := IndexOf(s, sep);
    var h, rest := s[..i], s[i + 1..];
    var ts := Split(rest, sep);
    assert Split(s, sep) == [h] + ts;
    ConsOfTokens(h, ts, kind);
  }

  /** A match starts with a character of its first token. */
  lemma {:induction false} RepeatedStartsWithToken(s: string, n: nat, sep: char, kind: TokenKind)
    requires Repeated(s, n, sep, kind)
    ensures |s| >= 1 && !IsWhitespace(s[0])
  {
    if n == 0 {
      TokenFacts(kind, s);
    } else {
      var i := IndexOf(s, sep);
      TokenFacts(kind, s[..i]);
      assert s[..i][0] == s[0];
    }
  }

  /** A match holds no character outside the hex digits and the separator. */
  lemma {:induction false} RepeatedAvoids(s: string, n: nat, sep: char, kind: TokenKind, c: char)
    requires !IsHexDigit(c) && c != sep
    requires Repeated(s, n, sep, kind)
    ensures forall j :: 0 <= j < |s| ==> s[j] != c
    decreases n
  {
    if n == 0 {
      TokenFacts(kind, s);
    } else {
      var i := IndexOf(s, sep);
      var rest := s[i + 1..];
      TokenFacts(kind, s[..i]);
      RepeatedAvoids(rest, n - 1, sep, kind, c);
      forall j | 0 <= j < |s|
        ensures s[j] != c
      {
        if j < i {
          assert s[j] == s[..i][j];
        } else if j > i {
          assert s[j] == rest[j - i - 1];
        }
      }
    }
  }

  /** In a match two separators are never adjacent, and the string neither
      starts nor ends with one. */
  lemma {:induction false} RepeatedHasNoEmptyField(s: string, n: nat, sep: char, kind: TokenKind)
    requires IsSeparator(sep)
    requires Repeated(s, n, sep, kind)
    ensures |s| >= 1 && s[0] != sep && s[|s| - 1] != sep
    ensures forall k :: 0 <= k < |s| - 1 ==> !(s[k] == sep && s[k + 1] == sep)
    decreases n
  {
    if n == 0 {
      TokenFacts(kind, s);
    } else {
      var i := IndexOf(s, sep);
      var rest := s[i + 1..];
      TokenFacts(kind, s[..i]);
      RepeatedHasNoEmptyField(rest, n - 1, sep, kind);
      assert s[..i][0] == s[0];
      assert s[|s| - 1] == rest[|rest| - 1];
      forall k | 0 <= k < |s| - 1
        ensures !(s[k] == sep && s[k + 1] == sep)
      {
        if k < i - 1 {
          assert s[k + 1] == s[..i][k + 1];
        } else if k == i - 1 {
          assert s[k] == s[..i][k];
        } else if k == i {
          assert s[k + 1] == rest[0];
        } else {
          assert s[k] == rest[k - i - 1] && s[k + 1] == rest[k - i];
        }
      }
    }
  }

  /** A body match never ends in a line terminator. */
  lemma BodyHasNoTerminator(pattern: Pattern, s: string)
    requires Body(pattern, s)
    ensures |s| >= 1 && !IsWhitespace(s[0]) && !EndsWithLineTerminator(s)
  {
    match pattern
    case Ipv4Pattern =>
      RepeatedIsSplit(s, 3, '.', Octet);
      RepeatedStartsWithToken(s, 3, '.', Octet);
      if EndsWithLineTerminator(s) {
        RepeatedAvoids(s, 3, '.', Octet, s[|s| - 1]);
      }
    case Ipv6Pattern =>
      RepeatedIsSplit(s, 7, ':', HexGroup);
      RepeatedStartsWithToken(s, 7, ':', HexGroup);
      if EndsWithLineTerminator(s) {
        RepeatedAvoids(s, 7, ':', HexGroup, s[|s| - 1]);
      }
  }

  /** Without a final line terminator, `isMatch` is an exact match of the
      pattern's body; the blank check never decides the outcome. */
  lemma MatchWithoutTerminator(s: string, pattern: Pattern)
    requires !EndsWithLineTerminator(s)
    ensures IsMatch(Some(s), pattern) <==> Body(pattern, s)
  {
    assert s[..|s|] == s;
    if Body(pattern, s) {
      BodyHasNoTerminator(pattern, s);
    }
  }

  /** `isIPV4(s)` holds exactly for four dot-separated fields of one to three
      digits, each at most 255 (leading zeros allowed), for every string that
      does not end in a line terminator. */
  lemma IsIPv4Iff(s: string)
    requires !EndsWithLineTerminator(s)
    ensures IsIPv4(Some(s)) <==> Ipv4Fields(s)
  {
    MatchWithoutTerminator(s, Ipv4Pattern);
    var fs := Split(s, '.');
    forall k | 0 <= k < |fs|
      ensures IsToken(Octet, fs[k]) <==> IsOctetField(fs[k])
    {
      OctetTokenIsOctetField(fs[k]);
    }
  }

  /** `isIPV6(s)` holds exactly for eight colon-separated groups of one to
      four hex digits of either case, for every string that does not end in
      a line terminator. */
  lemma IsIPv6Iff(s: string)
    requires !EndsWithLineTerminator(s)
    ensures IsIPv6(Some(s)) <==> Ipv6Fields(s)
  {
    MatchWithoutTerminator(s, Ipv6Pattern);
  }

  /** Null, empty and blank strings are neither IPv4 nor IPv6. */
  lemma BlankRejected(data: Option<string>)
    requires IsBlank(data)
    ensures !IsIPv4(data) && !IsIPv6(data)
  {
  }

  /** Only line terminators follow the body, so a colon lies inside it. */
  lemma NoColonAfterBodyEnd(s: string, r: nat, j: nat)
    requires r <= |s| && DollarAt(s, r)
    requires j < |s| && s[j] == ':'
    ensures j < r
  {
  }

  /** An IPv4 body ending at `r` leaves no colon before `r`. */
  lemma Ipv4BodyHasNoColon(s: string, r: nat)
    requires r <= |s| && Body(Ipv4Pattern, s[..r])
    ensures forall j :: 0 <= j < r ==> s[j] != ':'
  {
    RepeatedIsSplit(s[..r], 3, '.', Octet);
    RepeatedAvoids(s[..r], 3, '.', Octet, ':');
    forall j | 0 <= j < r
      ensures s[j] != ':'
    {
      assert s[..r][j] == s[j];
    }
  }

  /** Only line terminators follow the body, so a colon-free body leaves a
      colon-free string. */
  lemma NoColonAfterBody(s: string, r: nat)
    requires r <= |s| && DollarAt(s, r)
    requires forall j :: 0 <= j < r ==> s[j] != ':'
    ensures forall j :: 0 <= j < |s| ==> s[j] != ':'
  {
  }

  /** An IPv4 match holds no colon, so it is never split by the socket-address
      parser. */
  lemma IPv4HasNoColon(s: string)
    requires IsIPv4(Some(s))
    ensures forall j :: 0 <= j < |s| ==> s[j] != ':'
  {
    var r := BodyEnd(s);
    Ipv4BodyHasNoColon(s, r);
    NoColonAfterBody(s, r);
  }

  /** An IPv6 body ending at `r` leaves no dot before `r`. */
  lemma Ipv6BodyHasNoDot(s: string, r: nat)
    requires r <= |s| && Body(Ipv6Pattern, s[..r])
    ensures forall j :: 0 <= j < r ==> s[j] != '.'
  {
    RepeatedIsSplit(s[..r], 7, ':', HexGroup);
    RepeatedAvoids(s[..r], 7, ':', HexGroup, '.');
    forall j | 0 <= j < r
      ensures s[j] != '.'
    {
      assert s[..r][j] == s[j];
    }
  }

  /** An IPv6 match holds no dot, so splitting it at dots leaves it whole. */
  lemma IPv6HasNoDot(s: string)
    requires IsIPv6(Some(s))
    ensures forall j :: 0 <= j < |s| ==> s[j] != '.'
  {
    var r := BodyEnd(s);
    Ipv6BodyHasNoDot(s, r);
  }

  /** An IPv6 body never holds `::`. */
  lemma DoubleColonNotInBody(t: string, k: nat)
    requires k + 1 < |t| && t[k] == ':' && t[k + 1] == ':'
    ensures !Body(Ipv6Pattern, t)
  {
    if Body(Ipv6Pattern, t) {
      RepeatedIsSplit(t, 7, ':', HexGroup);
      RepeatedHasNoEmptyField(t, 7, ':', HexGroup);
    }
  }

  /** No string holding `::` anywhere is accepted as IPv6: the abbreviated
      forms are outside the grammar. */
  lemma AbbreviatedIPv6Rejected(s: string, k: nat)
    requires k + 1 < |s| && s[k] == ':' && s[k + 1] == ':'
    ensures !IsIPv6(Some(s))
  {
    if IsIPv6(Some(s)) {
      var r := BodyEnd(s);
      NoColonAfterBodyEnd(s, r, k + 1);
      DoubleColonNotInBody(s[..r], k);
    }
  }

  lemma Ipv4FieldsAreBody(s: string)
    requires Ipv4Fields(s)
    ensures Body(Ipv4Pattern, s)
  {
    var fs := Split(s, '.');
    forall k | 0 <= k < |fs|
      ensures IsOctetToken(fs[k])
    {
      OctetTokenIsOctetField(fs[k]);
    }
  }

  /** Each pattern's body accepts exactly the strings of its regular
      language. */
  lemma BodyIsRegexLanguage(s: string)
    ensures Body(Ipv4Pattern, s) <==> InRegexLanguage(s, 3, '.', Octet)
    ensures Body(Ipv6Pattern, s) <==> InRegexLanguage(s, 7, ':', HexGroup)
  {
    RepeatedIsSplit(s, 3, '.', Octet);
    RegexLanguageIsRepeated(s, 3, '.', Octet);
    RepeatedIsSplit(s, 7, ':', HexGroup);
    RegexLanguageIsRepeated(s, 7, ':', HexGroup);
  }

  /** A valid body followed by one line terminator is still found. */
  lemma BodyWithTerminator(pattern: Pattern, s: string, t: char)
    requires Body(pattern, s) && IsLineTerminator(t)
    ensures IsMatch(Some(s + [t]), pattern)
  {
    BodyHasNoTerminator(pattern, s);
    var u := s + [t];
    assert u[|u| - 2] == s[|s| - 1];
    assert BodyEnd(u) == |s| && u[..|s|] == s;
    assert u[0] == s[0];
  }

  /** As written, the code also accepts a valid IPv4 text followed by one line
      terminator, because `$` matches before a final terminator. */
  lemma TrailingTerminatorAccepted(s: string, t: char)
    requires Ipv4Fields(s) && IsLineTerminator(t)
    ensures IsIPv4(Some(s + [t]))
  {
    Ipv4FieldsAreBody(s);
    BodyWithTerminator(Ipv4Pattern, s, t);
  }

  /** A non-empty prefix that does not end in a line terminator, followed
      by a position where `$` holds, ends at `BodyEnd`. */
  lemma EndBeforeTerminator(s: string, r: nat)
    requires 1 <= r <= |s| && DollarAt(s, r) && !IsLineTerminator(s[r - 1])
    ensures r == BodyEnd(s)
  {
  }

  /** A body found ending at any position where `$` holds is found by
      `AnchoredFind`. */
  lemma MatchEndIsBodyEnd(pattern: Pattern, s: string, r: nat)
    requires MatchEndsAt(pattern, s, r)
    ensures r == BodyEnd(s) && AnchoredFind(pattern, s)
  {
    var t := s[..r];
    BodyHasNoTerminator(pattern, t);
    assert t[|t| - 1] == s[r - 1];
    EndBeforeTerminator(s, r);
  }

  lemma DollarFindIsAnchored(pattern: Pattern, s: string)
    requires DollarFind(pattern, s)
    ensures AnchoredFind(pattern, s)
  {
    if MatchEndsAt(pattern, s, |s|) {
      MatchEndIsBodyEnd(pattern, s, |s|);
    } else if |s| >= 1 && MatchEndsAt(pattern, s, |s| - 1) {
      MatchEndIsBodyEnd(pattern, s, |s| - 1);
    } else {
      MatchEndIsBodyEnd(pattern, s, |s| - 2);
    }
  }

  lemma AnchoredIsDollarFind(pattern: Pattern, s: string)
    requires AnchoredFind(pattern, s)
    ensures DollarFind(pattern, s)
  {
    assert MatchEndsAt(pattern, s, BodyEnd(s));
  }

  /** At most one of the three candidate positions can end a body, and it is
      `BodyEnd`: trying only that one finds exactly the same strings. */
  lemma DollarFindAtBodyEnd(pattern: Pattern, s: string)
    ensures DollarFind(pattern, s) <==> AnchoredFind(pattern, s)
  {
    if DollarFind(pattern, s) {
      DollarFindIsAnchored(pattern, s);
    }
    if AnchoredFind(pattern, s) {
      AnchoredIsDollarFind(pattern, s);
    }
  }
}

=== FILE: ip_policy.dfy ===
/** `NetUtil.isValidIp`: the address grammars combined with two exclusion
    flags that compare against the exact loopback and any-host literals. */
module IpPolicy {
  import opened Wrappers
  import opened IpGrammar
  import opened Text

  const LOCALHOST: string := "127.0.0.1"
  const ANY_HOST: string := "0.0.0.0"

  /** `StringUtil.isNullStr`: null or empty. */
  predicate IsNullStr(s: Option<string>) {
    s.None? || |s.value| == 0
  }

  /** `isValidIp(ip, includeLocal, includeAny)`. The result is exactly "an
      IPv4 or IPv6 address" with the loopback literal removed when
      `includeLocal` is off and the any-host literal removed when `includeAny`
      is off; no other string is excluded by either flag. */
  function IsValidIp(ip: Option<string>, includeLocal: bool, includeAny: bool): (r: bool)
    ensures r <==> && (IsIPv4(ip) || IsIPv6(ip))
                   && (includeLocal || ip != Some(LOCALHOST))
                   && (includeAny || ip != Some(ANY_HOST))
  {
    if IsNullStr(ip) then false
    else
      var isIp := IsIPv4(ip) || IsIPv6(ip);
      if includeLocal then
        if includeAny then isIp else isIp && ip.value != ANY_HOST
      else if includeAny then
        isIp && ip.value != LOCALHOST
      else
        isIp && ip.value != LOCALHOST && ip.value != ANY_HOST
  }

  /** The one-argument `isValidIp(ip)`: both flags on, so it accepts exactly
      the strings of either grammar. */
  function IsValidIpDefault(ip: Option<string>): (r: bool)
    ensures r == IsValidIp(ip, true, true)
    ensures r <==> IsIPv4(ip) || IsIPv6(ip)
  {
    IsValidIp(ip, true, true)
  }

  /** Turning a flag on never turns an accepted address into a rejected one. */
  lemma FlagsAreMonotone(ip: Option<string>, l: bool, a: bool, l': bool, a': bool)
    requires (l ==> l') && (a ==> a')
    ensures IsValidIp(ip, l, a) ==> IsValidIp(ip, l', a')
  {
  }

  /** One more token and separator in front of a first-separator parse. */
  lemma PrefixField(s: string, i: nat, n: nat)
    requires i < |s| && s[i] == '.' && IsOctetToken(s[..i]) && Repeated(s[i + 1..], n, '.', Octet)
    ensures Repeated(s, n + 1, '.', Octet)
  {
    TokenEndsAtFirstSeparator(s, i, '.', Octet);
    RepeatedStep(s, i, n + 1, '.', Octet);
  }

  /** Two octets around a dot. */
  lemma TwoFields(s: string, k: nat)
    requires k < |s| && s[k] == '.' && IsOctetToken(s[..k]) && IsOctetToken(s[k + 1..])
    ensures Repeated(s, 1, '.', Octet)
  {
    PrefixField(s, k, 0);
  }

  /** Three octets around two dots. */
  lemma ThreeFields(s: string, j: nat, k: nat)
    requires j < k < |s| && s[j] == '.' && s[k] == '.'
    requires IsOctetToken(s[..j]) && IsOctetToken(s[j + 1..k]) && IsOctetToken(s[k + 1..])
    ensures Repeated(s, 2, '.', Octet)
  {
    var r := s[j + 1..];
    SliceOfSuffix(s, j + 1, 0, k - j - 1);
    SliceOfSuffix(s, j + 1, k - j, |r|);
    TwoFields(r, k - j - 1);
    PrefixField(s, j, 1);
  }

  /** A dotted quad given by the positions of its three dots. */
  lemma Ipv4FromParts(s: string, i: nat, j: nat, k: nat)
    requires i < j < k < |s|
    requires s[i] == '.' && s[j] == '.' && s[k] == '.'
    requires IsOctetToken(s[..i]) && IsOctetToken(s[i + 1..j]) && IsOctetToken(s[j + 1..k]) && IsOctetToken(s[k + 1..])
    ensures IsIPv4(Some(s))
  {
    var r := s[i + 1..];
    SliceOfSuffix(s, i + 1, 0, j - i - 1);
    SliceOfSuffix(s, i + 1, j - i, k - i - 1);
    SliceOfSuffix(s, i + 1, k - i, |r|);
    ThreeFields(r, j - i - 1, k - i - 1);
    PrefixField(s, i, 2);
    ParsedIsIPv4(s);
  }

  /** A string the first-separator parse accepts as four octets is IPv4. */
  lemma ParsedIsIPv4(s: string)
    requires Repeated(s, 3, '.', Octet)
    ensures IsIPv4(Some(s))
  {
    RepeatedIsSplit(s, 3, '.', Octet);
    BodyHasNoTerminator(Ipv4Pattern, s);
    MatchWithoutTerminator(s, Ipv4Pattern);
  }

  lemma LocalhostIsIPv4()
    ensures IsIPv4(Some(LOCALHOST))
  {
    var s := LOCALHOST;
    assert IsOctetToken(s[..3]) by { assert s[..3] == "127"; }
    assert IsOctetToken(s[4..5]) by { assert s[4..5] == "0"; }
    assert IsOctetToken(s[6..7]) by { assert s[6..7] == "0"; }
    assert IsOctetToken(s[8..]) by { assert s[8..] == "1"; }
    Ipv4FromParts(s, 3, 5, 7);
  }

  lemma AnyHostIsIPv4()
    ensures IsIPv4(Some(ANY_HOST))
  {
    var s := ANY_HOST;
    assert IsOctetToken(s[..1]) by { assert s[..1] == "0"; }
    assert IsOctetToken(s[2..3]) by { assert s[2..3] == "0"; }
    assert IsOctetToken(s[4..5]) by { assert s[4..5] == "0"; }
    assert IsOctetToken(s[6..]) by { assert s[6..] == "0"; }
    Ipv4FromParts(s, 1, 3, 5);
  }

  /** The flag table on the two special literals and on the empty string. */
  lemma SpecialLiterals(l: bool, a: bool)
    ensures IsValidIp(Some(LOCALHOST), l, a) <==> l
    ensures IsValidIp(Some(ANY_HOST), l, a) <==> a
    ensures !IsValidIp(Some(""), l, a) && !IsValidIp(None, l, a)
  {
    LocalhostIsIPv4();
    AnyHostIsIPv4();
  }
}

=== FILE: local_address.dfy ===
/** `NetUtil.getLocalAddress0`, the cached `getLocalAddress` built on it, and
    `getLocalIp` / `getLocalHost`.

    The JDK calls the search makes are inputs: what `InetAddress.getLocalHost()`
    returns or whether it throws, and what the interface and address
    enumerations yield, element by element. */
module LocalAddress {
  import opened Wrappers
  import opened IpGrammar
  import opened IpPolicy
  import opened SocketAddresses

  /** The outcome of a JDK call that may throw. */
  datatype Probe<+T> = Threw | Returned(value: T)

  /** One `nextElement()` of an address enumeration: it throws, or yields an
      address that may be null. */
  type AddressProbe = Probe<Option<InetAddress>>

  /** One step of the interface enumeration: `nextElement()` or
      `getInetAddresses()` throws, or the interface's address enumeration,
      which may be null. */
  type InterfaceProbe = Probe<Option<seq<AddressProbe>>>

  /** The machine as the search sees it. `interfaces` is what
      `NetworkInterface.getNetworkInterfaces()` does: throw, return null, or
      return the enumeration. */
  datatype Environment = Environment(
    localHost: Probe<InetAddress>,
    interfaces: Probe<Option<seq<InterfaceProbe>>>)

  /** `isValidAddress(address)`: not null, not loopback, and a host address
      the one-argument `isValidIp` accepts. */
  predicate IsValidAddress(a: Option<InetAddress>): (r: bool)
    ensures r <==> a.Some? && !a.value.isLoopback
                   && (IsIPv4(Some(a.value.hostAddress)) || IsIPv6(Some(a.value.hostAddress)))
  {
    a.Some? && !a.value.isLoopback && IsValidIpDefault(Some(a.value.hostAddress))
  }

  /** For a host address without a trailing line terminator, validity is
      the field-level description: four octets or eight hex groups. The
      `127.0.0.1` and `0.0.0.0` literals are not excluded. */
  lemma ValidAddressByFields(a: InetAddress)
    requires !EndsWithLineTerminator(a.hostAddress)
    ensures IsValidAddress(Some(a)) <==> !a.isLoopback && (Ipv4Fields(a.hostAddress) || Ipv6Fields(a.hostAddress))
  {
    IsIPv4Iff(a.hostAddress);
    IsIPv6Iff(a.hostAddress);
  }

  // ---------------------------------------------------------------------
  // The search as a reference definition

  /** The addresses an address enumeration yields without throwing. */
  function Reached(ps: seq<AddressProbe>): (r: seq<Option<InetAddress>>)
    ensures |r| <= |ps|
  {
    if |ps| == 0 then [] else (if ps[0].Returned? then [ps[0].value] else []) + Reached(ps[1..])
  }

  /** The addresses one interface contributes. */
  function Offered(p: InterfaceProbe): seq<Option<InetAddress>> {
    if p.Returned? && p.value.Some? then Reached(p.value.value) else []
  }

  /** The addresses of all interfaces, in enumeration order. */
  function Candidates(ifs: seq<InterfaceProbe>): seq<Option<InetAddress>> {
    if |ifs| == 0 then [] else Offered(ifs[0]) + Candidates(ifs[1..])
  }

  function AllCandidates(env: Environment): seq<Option<InetAddress>> {
    if env.interfaces.Returned? && env.interfaces.value.Some? then Candidates(env.interfaces.value.value) else []
  }

  /** The first valid address of `cs`. */
  function FirstValid(cs: seq<Option<InetAddress>>): (r: Option<InetAddress>)
    ensures r.Some? ==> IsValidAddress(r) && exists i :: 0 <= i < |cs| && cs[i] == r && NoneValid(cs[..i])
    ensures r.None? <==> NoneValid(cs)
  {
    if |cs| == 0 then None
    else if IsValidAddress(cs[0]) then cs[0]
    else
      var r := FirstValid(cs[1..]);
      FirstValidOfTail(cs, r);
      r
  }

  /** What holds of the first valid address of `cs[1..]` holds of `cs` when
      `cs[0]` is invalid. */
  lemma FirstValidOfTail(cs: seq<Option<InetAddress>>, r: Option<InetAddress>)
    requires |cs| > 0 && !IsValidAddress(cs[0])
    requires r.Some? ==> exists i :: 0 <= i < |cs[1..]| && cs[1..][i] == r && NoneValid(cs[1..][..i])
    requires r.None? <==> NoneValid(cs[1..])
    ensures r.Some? ==> exists i :: 0 <= i < |cs| && cs[i] == r && NoneValid(cs[..i])
    ensures r.None? <==> NoneValid(cs)
  {
    if r.Some? {
      var i :| 0 <= i < |cs| - 1 && cs[1..][i] == r && NoneValid(cs[1..][..i]);
      assert cs[..i + 1] == [cs[0]] + cs[1..][..i];
    }
    if NoneValid(cs[1..]) {
      forall k | 0 < k < |cs|
        ensures !IsValidAddress(cs[k])
      {
        assert cs[k] == cs[1..][k - 1];
      }
    }
  }

  predicate NoneValid(cs: seq<Option<InetAddress>>) {
    forall k :: 0 <= k < |cs| ==> !IsValidAddress(cs[k])
  }

  /** What the search returns when nothing valid is found: the address
      `getLocalHost()` returned, or null if it threw. */
  function Fallback(env: Environment): Option<InetAddress> {
    if env.localHost.Returned? then Some(env.localHost.value) else None
  }

  /** The address the search settles on: the local host when it is valid,
      else the first valid interface address, else the fallback. */
  function LocalAddressOf(env: Environment): (r: Option<InetAddress>)
    ensures IsValidAddress(r) <==> IsValidAddress(Fallback(env)) || !NoneValid(AllCandidates(env))
    ensures !IsValidAddress(r) ==> r == Fallback(env)
    ensures IsValidAddress(r) && !IsValidAddress(Fallback(env)) ==>
              exists i :: 0 <= i < |AllCandidates(env)| && AllCandidates(env)[i] == r && NoneValid(AllCandidates(env)[..i])
  {
    if IsValidAddress(Fallback(env)) then Fallback(env)
    else
      var found := FirstValid(AllCandidates(env));
      if found.Some? then found else Fallback(env)
  }

  // ---------------------------------------------------------------------
  // The search as the loops of the source

  /** Entering interface `i`: its addresses come before those of the
      interfaces after it. */
  lemma EnterInterface(ifs: seq<InterfaceProbe>, i: nat)
    requires i < |ifs|
    ensures FirstValid(Candidates(ifs[i..])) == FirstValid(Offered(ifs[i]) + Candidates(ifs[i + 1..]))
  {
    assert ifs[i..][1..] == ifs[i + 1..];
  }

  /** Leaving an interface whose addresses are exhausted. */
  lemma LeaveInterface(ps: seq<AddressProbe>, rest: seq<Option<InetAddress>>)
    ensures FirstValid(Reached(ps[|ps|..]) + rest) == FirstValid(rest)
  {
    assert ps[|ps|..] == [];
    assert [] + rest == rest;
  }

  /** An interface that contributes nothing is passed over. */
  lemma SkipInterface(p: InterfaceProbe, rest: seq<Option<InetAddress>>)
    requires !(p.Returned? && p.value.Some?)
    ensures FirstValid(Offered(p) + rest) == FirstValid(rest)
  {
    assert [] + rest == rest;
  }

  /** An address step that throws or yields an invalid address is passed
      over. */
  lemma SkipAddress(ps: seq<AddressProbe>, j: nat, rest: seq<Option<InetAddress>>)
    requires j < |ps| && !(ps[j].Returned? && IsValidAddress(ps[j].value))
    ensures FirstValid(Reached(ps[j..]) + rest) == FirstValid(Reached(ps[j + 1..]) + rest)
  {
    assert ps[j..][1..] == ps[j + 1..];
    if ps[j].Returned? {
      var c := ps[j].value;
      assert Reached(ps[j..]) + rest == [c] + (Reached(ps[j + 1..]) + rest);
      assert ([c] + (Reached(ps[j + 1..]) + rest))[1..] == Reached(ps[j + 1..]) + rest;
    } else {
      assert Reached(ps[j..]) == Reached(ps[j + 1..]);
    }
  }

  /** A valid address ends the search. */
  lemma FoundAddress(ps: seq<AddressProbe>, j: nat, rest: seq<Option<InetAddress>>)
    requires j < |ps| && ps[j].Returned? && IsValidAddress(ps[j].value)
    ensures FirstValid(Reached(ps[j..]) + rest) == ps[j].value
  {
    assert ps[j..][1..] == ps[j + 1..];
    assert (Reached(ps[j..]) + rest)[0] == ps[j].value;
  }

  /** `getLocalAddress0()`: the local host if valid; otherwise each address
      of each interface in turn, skipping those whose enumeration step throws;
      otherwise whatever `getLocalHost()` returned. */
  method GetLocalAddress0(env: Environment) returns (r: Option<InetAddress>)
    ensures r == LocalAddressOf(env)
  {
    var localAddress: Option<InetAddress> := None;
    if env.localHost.Returned? {
      localAddress := Some(env.localHost.value);
      if IsValidAddress(localAddress) {
        return localAddress;
      }
    }
    ghost var target := FirstValid(AllCandidates(env));
    if env.interfaces.Returned? && env.interfaces.value.Some? {
      var ifs := env.interfaces.value.value;
      var i := 0;
      assert ifs[0..] == ifs;
      while i < |ifs|
        invariant 0 <= i <= |ifs|
        invariant target == FirstValid(Candidates(ifs[i..]))
      {
        EnterInterface(ifs, i);
        ghost var rest := Candidates(ifs[i + 1..]);
        if ifs[i].Returned? && ifs[i].value.Some? {
          var ps := ifs[i].value.value;
          var j := 0;
          assert ps[0..] == ps;
          while j < |ps|
            invariant 0 <= j <= |ps|
            invariant target == FirstValid(Reached(ps[j..]) + rest)
          {
            if ps[j].Returned? {
              var address := ps[j].value;
              if IsValidAddress(address) {
                FoundAddress(ps, j, rest);
                return address;
              }
            }
            SkipAddress(ps, j, rest);
            j := j + 1;
          }
          LeaveInterface(ps, rest);
        } else {
          SkipInterface(ifs[i], rest);
        }
        i := i + 1;
      }
      assert ifs[i..] == [];
    }
    return localAddress;
  }

  // ---------------------------------------------------------------------
  // The cache

  /** The static field `LOCAL_ADDRESS`. */
  datatype NetState = NetState(localAddress: Option<InetAddress>)

  /** `getLocalAddress()`: the cached address if there is one, otherwise a
      fresh search whose result, null included, is stored. */
  function GetLocalAddress(st: NetState, env: Environment): (r: (Option<InetAddress>, NetState))
    ensures st.localAddress.Some? ==> r == (st.localAddress, st)
    ensures st.localAddress.None? ==> r.0 == LocalAddressOf(env)
    ensures r.1.localAddress == r.0
  {
    if st.localAddress.Some? then (st.localAddress, st)
    else
      var a := LocalAddressOf(env);
      (a, NetState(a))
  }

  /** `getLocalIp()`: the host address, or the loopback literal when there is
      no address. */
  function GetLocalIp(st: NetState, env: Environment): (r: (string, NetState))
    ensures r.1 == GetLocalAddress(st, env).1
    ensures GetLocalAddress(st, env).0.None? ==> r.0 == LOCALHOST
    ensures GetLocalAddress(st, env).0.Some? ==> r.0 == GetLocalAddress(st, env).0.value.hostAddress
  {
    var (a, st') := GetLocalAddress(st, env);
    (if a.None? then LOCALHOST else a.value.hostAddress, st')
  }

  /** `getLocalHost()`: the host name, or `"localhost"` when there is no
      address. */
  function GetLocalHost(st: NetState, env: Environment): (r: (string, NetState))
    ensures r.1 == GetLocalAddress(st, env).1
    ensures GetLocalAddress(st, env).0.None? ==> r.0 == "localhost"
    ensures GetLocalAddress(st, env).0.Some? ==> r.0 == GetLocalAddress(st, env).0.value.hostName
  {
    var (a, st') := GetLocalAddress(st, env);
    (if a.None? then "localhost" else a.value.hostName, st')
  }

  // ---------------------------------------------------------------------
  // Properties of the cache

  /** Once an address is stored, every later call returns it, whatever the
      machine reports then. */
  lemma CachedAddressIsStable(st: NetState, env: Environment, env': Environment)
    requires GetLocalAddress(st, env).0.Some?
    ensures var st' := GetLocalAddress(st, env).1;
            GetLocalAddress(st', env') == (GetLocalAddress(st, env).0, st')
  {
  }

  /** A search that finds nothing stores null, so the next call searches
      again. */
  lemma NullIsNotCached(st: NetState, env: Environment, env': Environment)
    requires GetLocalAddress(st, env).0.None?
    ensures GetLocalAddress(GetLocalAddress(st, env).1, env').0 == LocalAddressOf(env')
  {
  }

  /** An invalid local host, a loopback one say, is stored when no interface
      offers a valid address, and then sticks. */
  lemma InvalidLocalHostIsCached(env: Environment, env': Environment)
    requires env.localHost.Returned? && !IsValidAddress(Some(env.localHost.value))
    requires NoneValid(AllCandidates(env))
    ensures var (a, st) := GetLocalAddress(NetState(None), env);
            a == Some(env.localHost.value) && GetLocalAddress(st, env').0 == a
  {
  }

  /** Whenever the address in hand is valid or absent, `getLocalIp` returns
      an address `isValidIp` accepts. */
  lemma LocalIpIsValidIp(st: NetState, env: Environment)
    requires var a := GetLocalAddress(st, env).0; a.None? || IsValidAddress(a)
    ensures IsValidIpDefault(Some(GetLocalIp(st, env).0))
  {
    if GetLocalAddress(st, env).0.None? {
      LocalhostIsIPv4();
    }
  }

  /** With nothing cached, the search comes back empty exactly when
      `getLocalHost()` threw and no interface offers a valid address; then
      `getLocalHost` answers `localhost`, `getLocalIp` answers `127.0.0.1`,
      and the cache stays empty. */
  lemma LocalHostWhenNothingFound(st: NetState, env: Environment)
    requires st.localAddress.None?
    ensures GetLocalAddress(st, env).0.None? <==> Fallback(env).None? && NoneValid(AllCandidates(env))
    ensures Fallback(env).None? && NoneValid(AllCandidates(env)) ==>
              GetLocalHost(st, env) == ("localhost", st) && GetLocalIp(st, env) == (LOCALHOST, st)
  {
  }

  /** `isValidAddress` uses the one-argument `isValidIp`, which keeps the
      any-host literal: a non-loopback address `0.0.0.0` counts as valid. */
  lemma AnyHostCountsAsValid(hostName: string)
    ensures IsValidAddress(Some(InetAddress(ANY_HOST, hostName, false)))
  {
    AnyHostIsIPv4();
  }

  /** A local host that is valid wins without consulting the interfaces. */
  lemma ValidLocalHostWins(env: Environment)
    requires env.localHost.Returned? && IsValidAddress(Some(env.localHost.value))
    ensures LocalAddressOf(env) == Some(env.localHost.value)
  {
  }
}

=== FILE: profile_world.dfy ===
/** The static side of `DefaultProfile`: the process-wide `profile` field
    that the `getProfile` overloads read and replace, and the endpoint
    registry the `addEndpoint` overloads write to.

    Profiles are objects in Java, so the model keeps them in a heap and the
    static field holds a reference: a caller that got the current profile
    keeps it when another overload installs a new one. */
module ProfileWorld {
  import opened Wrappers
  import opened DefaultProfile

  /** A reference to a profile object. */
  type Ref = nat

  /** The key `putEndpointEntry` files an endpoint under. */
  datatype EndpointKey = EndpointKey(regionId: string, product: string)

  datatype World = World(
    heap: seq<Profile>,
    current: Option<Ref>,
    endpoints: map<EndpointKey, string>)

  /** The static field refers to an allocated profile. */
  predicate Valid(w: World) {
    w.current.Some? ==> w.current.value < |w.heap|
  }

  /** The world before any profile exists. */
  function Initial(): (w: World)
    ensures Valid(w) && w.current.None?
  {
    World([], None, map[])
  }

  /** A `new DefaultProfile(…)`. */
  function Alloc(w: World, p: Profile): (r: (Ref, World))
    ensures r.0 == |w.heap| && r.1.heap == w.heap + [p]
    ensures r.1.current == w.current && r.1.endpoints == w.endpoints
  {
    (|w.heap|, w.(heap := w.heap + [p]))
  }

  /** Allocates `p` and makes it the current profile. */
  function Install(w: World, p: Profile): (r: (Ref, World))
    ensures Valid(r.1) && r.1.current == Some(r.0) && r.1.heap[r.0] == p
    ensures r.0 == |w.heap| && r.1.heap == w.heap + [p] && r.1.endpoints == w.endpoints
  {
    var (ref, w') := Alloc(w, p);
    (ref, w'.(current := Some(ref)))
  }

  /** `getProfile()`: creates a profile only when there is none. */
  function GetProfile(w: World): (r: (Ref, World))
    requires Valid(w)
    ensures Valid(r.1) && r.1.current == Some(r.0)
  {
    if w.current.None? then Install(w, NewProfile()) else (w.current.value, w)
  }

  /** `getProfile(regionId, icredential)`. */
  function GetProfileWithProvider(w: World, regionId: Option<string>, icredential: Option<CredentialProvider>): (r: (Ref, World))
    ensures Valid(r.1) && r.1.current == Some(r.0)
  {
    Install(w, NewProfileWithProvider(regionId, icredential))
  }

  /** `getProfile(regionId, accessKeyId, secret)`. */
  function GetProfileWithKeys(w: World, regionId: Option<string>, accessKeyId: string, secret: string): (r: (Ref, World))
    ensures Valid(r.1) && r.1.current == Some(r.0)
  {
    Install(w, NewProfileWithCredential(regionId, KeyPair(accessKeyId, secret)))
  }

  /** `getProfile(regionId, accessKeyId, secret, stsToken)`. */
  function GetProfileWithToken(w: World, regionId: Option<string>, accessKeyId: string, secret: string, stsToken: string): (r: (Ref, World))
    ensures Valid(r.1) && r.1.current == Some(r.0)
  {
    Install(w, NewProfileWithCredential(regionId, SessionKeys(accessKeyId, secret, stsToken)))
  }

  /** `getProfile(regionId)`: a new profile that is not installed. */
  function GetProfileForRegion(w: World, regionId: Option<string>): (r: (Ref, World))
    requires Valid(w)
    ensures Valid(r.1) && r.1.current == w.current && r.0 == |w.heap|
  {
    Alloc(w, NewProfileForRegion(regionId))
  }

  /** An instance method called on the profile `ref` refers to. */
  function Invoke(w: World, ref: Ref, op: Op): (r: World)
    requires ref < |w.heap|
    ensures |r.heap| == |w.heap| && r.current == w.current && r.endpoints == w.endpoints
  {
    w.(heap := w.heap[ref := Apply(w.heap[ref], op)])
  }

  /** `addEndpoint(regionId, product, endpoint)`: files the endpoint with
      the predefined resolver. */
  function AddEndpoint(w: World, regionId: string, product: string, endpoint: string): (r: World)
    ensures r.heap == w.heap && r.current == w.current
    ensures r.endpoints == w.endpoints[EndpointKey(regionId, product) := endpoint]
  {
    w.(endpoints := w.endpoints[EndpointKey(regionId, product) := endpoint])
  }

  /** The deprecated `addEndpoint(endpointName, regionId, product, domain,
      isNeverExpire)`. */
  function AddEndpointExpiring(w: World, endpointName: string, regionId: string, product: string,
                               domain: string, isNeverExpire: bool): World
  {
    AddEndpoint(w, regionId, product, domain)
  }

  /** The deprecated `addEndpoint(endpointName, regionId, product, domain)`. */
  function AddEndpointNamed(w: World, endpointName: string, regionId: string, product: string, domain: string): World {
    AddEndpointExpiring(w, endpointName, regionId, product, domain, true)
  }

  // ---------------------------------------------------------------------
  // The current profile

  /** A second `getProfile()` returns the same profile and changes
      nothing. */
  lemma GetProfileIsStable(w: World)
    requires Valid(w)
    ensures var (ref, w') := GetProfile(w);
            GetProfile(w') == (ref, w')
  {
  }

  /** In a fresh process the first `getProfile()` allocates the first
      profile, a blank one, and installs it. */
  lemma FirstGetProfileAllocates()
    ensures Valid(Initial())
    ensures GetProfile(Initial()) == (0, World([NewProfile()], Some(0), map[]))
  {
    assert Initial().heap + [NewProfile()] == [NewProfile()];
  }

  /** `getProfile()` leaves an existing profile, and the rest of the world,
      alone; only when there is none does it allocate a blank one. */
  lemma GetProfileCreatesOnlyWhenAbsent(w: World)
    requires Valid(w)
    ensures w.current.Some? ==> GetProfile(w) == (w.current.value, w)
    ensures w.current.None? ==>
              var (ref, w') := GetProfile(w);
              w'.heap == w.heap + [NewProfile()] && ref == |w.heap| && w'.endpoints == w.endpoints
  {
  }

  /** Each replacing overload installs the profile it returns, with the
      region and the credential or provider it was given and every other
      field at its initial value. The profile is a new object, distinct from
      the one installed before; profiles allocated earlier and the endpoint
      registry are kept as they were. */
  lemma ReplacingOverloads(w: World, regionId: Option<string>, icredential: Option<CredentialProvider>,
                           accessKeyId: string, secret: string, stsToken: string)
    ensures var (ref, w') := GetProfileWithProvider(w, regionId, icredential);
            w'.current == Some(ref) && w'.heap[..|w.heap|] == w.heap
            && ref == |w.heap| && |w'.heap| == |w.heap| + 1 && w'.endpoints == w.endpoints
            && (Valid(w) && w.current.Some? ==> ref != w.current.value)
            && w'.heap[ref] == NewProfile().(regionId := regionId, icredential := icredential)
    ensures var (ref, w') := GetProfileWithKeys(w, regionId, accessKeyId, secret);
            w'.current == Some(ref) && w'.heap[..|w.heap|] == w.heap
            && ref == |w.heap| && |w'.heap| == |w.heap| + 1 && w'.endpoints == w.endpoints
            && (Valid(w) && w.current.Some? ==> ref != w.current.value)
            && w'.heap[ref] == NewProfile().(regionId := regionId, credential := Some(KeyPair(accessKeyId, secret)))
    ensures var (ref, w') := GetProfileWithToken(w, regionId, accessKeyId, secret, stsToken);
            w'.current == Some(ref) && w'.heap[..|w.heap|] == w.heap
            && ref == |w.heap| && |w'.heap| == |w.heap| + 1 && w'.endpoints == w.endpoints
            && (Valid(w) && w.current.Some? ==> ref != w.current.value)
            && w'.heap[ref] == NewProfile().(regionId := regionId, credential := Some(SessionKeys(accessKeyId, secret, stsToken)))
  {
  }

  /** `getProfile(regionId)` returns a new profile with only the region set
      and leaves the current profile as it was. */
  lemma RegionProfileIsNotInstalled(w: World, regionId: Option<string>)
    requires Valid(w)
    ensures var (ref, w') := GetProfileForRegion(w, regionId);
            w'.current == w.current && w'.heap[ref] == NewProfile().(regionId := regionId)
            && (w.current.Some? ==> ref != w.current.value && w'.heap[w.current.value] == w.heap[w.current.value])
  {
  }

  /** After a replacing overload, `getProfile()` returns the installed
      profile instead of creating one. */
  lemma GetProfileAfterReplace(w: World, regionId: Option<string>, accessKeyId: string, secret: string)
    ensures var (ref, w') := GetProfileWithKeys(w, regionId, accessKeyId, secret);
            GetProfile(w') == (ref, w')
  {
  }

  /** Calls on a profile other than the current one leave the current
      profile unchanged; calls through the current reference are seen by the
      next `getProfile()`. */
  lemma InvokeAliasing(w: World, ref: Ref, op: Op)
    requires Valid(w) && ref < |w.heap|
    ensures var w' := Invoke(w, ref, op);
            Valid(w')
            && (w.current.Some? && w.current.value != ref ==> w'.heap[w.current.value] == w.heap[w.current.value])
            && (w.current == Some(ref) ==> w'.heap[GetProfile(w').0] == Apply(w.heap[ref], op))
  {
  }

  /** Every profile ever allocated has no accept format: no constructor and
      no instance method sets it. */
  predicate NoAcceptFormat(w: World) {
    forall i :: 0 <= i < |w.heap| ==> w.heap[i].acceptFormat.None?
  }

  /** Allocating a profile without an accept format keeps `NoAcceptFormat`. */
  lemma AllocKeepsNoAcceptFormat(w: World, p: Profile)
    requires NoAcceptFormat(w) && p.acceptFormat.None?
    ensures NoAcceptFormat(Alloc(w, p).1) && NoAcceptFormat(Install(w, p).1)
  {
    var heap := w.heap + [p];
    forall i | 0 <= i < |heap| ensures heap[i].acceptFormat.None? {
      if i < |w.heap| { assert heap[i] == w.heap[i]; }
    }
  }

  /** Every `getProfile` overload keeps `NoAcceptFormat`. */
  lemma GetProfileKeepsNoAcceptFormat(w: World, regionId: Option<string>,
                                      icredential: Option<CredentialProvider>, accessKeyId: string,
                                      secret: string, stsToken: string)
    requires Valid(w) && NoAcceptFormat(w)
    ensures NoAcceptFormat(GetProfile(w).1)
    ensures NoAcceptFormat(GetProfileWithProvider(w, regionId, icredential).1)
    ensures NoAcceptFormat(GetProfileWithKeys(w, regionId, accessKeyId, secret).1)
    ensures NoAcceptFormat(GetProfileWithToken(w, regionId, accessKeyId, secret, stsToken).1)
    ensures NoAcceptFormat(GetProfileForRegion(w, regionId).1)
  {
    AllocKeepsNoAcceptFormat(w, NewProfile());
    AllocKeepsNoAcceptFormat(w, NewProfileWithProvider(regionId, icredential));
    AllocKeepsNoAcceptFormat(w, NewProfileWithCredential(regionId, KeyPair(accessKeyId, secret)));
    AllocKeepsNoAcceptFormat(w, NewProfileWithCredential(regionId, SessionKeys(accessKeyId, secret, stsToken)));
    AllocKeepsNoAcceptFormat(w, NewProfileForRegion(regionId));
  }

  /** No instance method sets the accept format, so `NoAcceptFormat` holds
      after any call on any profile. */
  lemma InvokeKeepsNoAcceptFormat(w: World, ref: Ref, op: Op)
    requires ref < |w.heap| && NoAcceptFormat(w)
    ensures NoAcceptFormat(Invoke(w, ref, op))
  {
    FixedFieldsAreKeptByRuns(w.heap[ref], [op]);
    assert Run(w.heap[ref], [op]) == Apply(w.heap[ref], op);
    var heap := Invoke(w, ref, op).heap;
    forall i | 0 <= i < |heap| ensures heap[i].acceptFormat.None? {
      if i != ref { assert heap[i] == w.heap[i]; }
    }
  }

  // ---------------------------------------------------------------------
  // Endpoints

  /** Both deprecated overloads do exactly what the three-argument form
      does: the endpoint name and the expiry flag have no effect. */
  lemma DeprecatedAddEndpointForwards(w: World, endpointName: string, endpointName': string,
                                      regionId: string, product: string, domain: string, isNeverExpire: bool)
    ensures AddEndpointExpiring(w, endpointName, regionId, product, domain, isNeverExpire)
         == AddEndpoint(w, regionId, product, domain)
    ensures AddEndpointNamed(w, endpointName, regionId, product, domain) == AddEndpoint(w, regionId, product, domain)
    ensures AddEndpointNamed(w, endpointName, regionId, product, domain)
         == AddEndpointNamed(w, endpointName', regionId, product, domain)
  {
  }

  /** A registered endpoint is found under its region and product; other
      entries are untouched, and the last registration for a key wins. */
  lemma AddEndpointLookup(w: World, regionId: string, product: string, endpoint: string, endpoint': string, key: EndpointKey)
    ensures EndpointKey(regionId, product) in AddEndpoint(w, regionId, product, endpoint).endpoints
    ensures AddEndpoint(w, regionId, product, endpoint).endpoints[EndpointKey(regionId, product)] == endpoint
    ensures key != EndpointKey(regionId, product) && key in w.endpoints ==>
              AddEndpoint(w, regionId, product, endpoint).endpoints[key] == w.endpoints[key]
    ensures AddEndpoint(AddEndpoint(w, regionId, product, endpoint), regionId, product, endpoint')
         == AddEndpoint(w, regionId, product, endpoint')
  {
  }
}

=== FILE: socket_addresses.dfy ===
/** Socket addresses as `NetUtil` builds, prints and checks them.

    `java.net.InetAddress` and `java.net.InetSocketAddress` are reduced to
    the attributes the code reads; name resolution is a map supplied by the
    caller, since it happens inside the JDK. */
module SocketAddresses {
  import opened Wrappers
  import opened Text
  import opened IpGrammar

  /** An `InetAddress`: `getHostAddress()`, `getHostName()` and
      `isLoopbackAddress()`. */
  datatype InetAddress = InetAddress(hostAddress: string, hostName: string, isLoopback: bool)

  const MAX_PORT: int := 0xFFFF

  type Port = p: int | 0 <= p <= MAX_PORT

  /** An `InetSocketAddress`: the host text passed to its constructor, the
      resolved address of `getAddress()` (null when unresolved) and
      `getPort()`. `validAddress` reads the host text where the code calls
      `getHostName()`. */
  datatype SocketAddress = SocketAddress(hostName: Option<string>, address: Option<InetAddress>, port: Port)

  /** The exceptions the modelled code can raise. */
  datatype AddressError = NumberFormat | IllegalArgument | NullPointer | IndexOutOfBounds

  /** Name resolution as `new InetSocketAddress(host, port)` performs it:
      a host missing from the map stays unresolved. */
  type Resolver = map<string, InetAddress>

  function Lookup(resolve: Resolver, host: string): Option<InetAddress> {
    if host in resolve then Some(resolve[host]) else None
  }

  const INT_MIN: int := -0x8000_0000
  const INT_MAX: int := 0x7FFF_FFFF

  /** Java's radix-10 integer parsing into the range `min..max`: an
      optional `-` or `+`, then at least one decimal digit. */
  function ParseSigned(s: string, min: int, max: int): (r: Result<int, AddressError>)
    ensures r.Success? ==> min <= r.value <= max
    ensures r.Failure? ==> r.error == NumberFormat
  {
    if |s| == 0 then Failure(NumberFormat)
    else
      var negative := s[0] == '-';
      var digits := if s[0] == '-' || s[0] == '+' then s[1..] else s;
      if |digits| == 0 || !AllDigits(digits) then Failure(NumberFormat)
      else
        var v: int := if negative then 0 - DecimalValue(digits) as int else DecimalValue(digits);
        if min <= v <= max then Success(v) else Failure(NumberFormat)
  }

  /** `Integer.parseInt(s)`. */
  function ParseInt(s: string): (r: Result<int, AddressError>)
    ensures r.Success? ==> INT_MIN <= r.value <= INT_MAX
  {
    ParseSigned(s, INT_MIN, INT_MAX)
  }

  /** `new InetSocketAddress(host, port)`: the port must lie in 0..65535. */
  function NewSocketAddress(host: string, port: int, resolve: Resolver): (r: Result<SocketAddress, AddressError>)
    ensures r.Success? <==> 0 <= port <= MAX_PORT
    ensures r.Failure? ==> r.error == IllegalArgument
  {
    if 0 <= port <= MAX_PORT then Success(SocketAddress(Some(host), Lookup(resolve, host), port))
    else Failure(IllegalArgument)
  }

  /** `toInetSocketAddress(address)`: split at the first colon. */
  function ToInetSocketAddress(address: string, resolve: Resolver): (r: Result<SocketAddress, AddressError>)
    ensures r.Failure? ==> r.error == NumberFormat || r.error == IllegalArgument
    ensures r.Success? ==> r.value.hostName.Some? && r.value.hostName.value <= address
  {
    var i := IndexOf(address, ':');
    if i > -1 then
      var host := address[..i];
      match ParseInt(address[i + 1..])
      case Failure(e) => Failure(e)
      case Success(port) => NewSocketAddress(host, port, resolve)
    else
      NewSocketAddress(address, 0, resolve)
  }

  /** `toStringAddress(address)`: the resolved host address, a colon and the
      port in decimal; an unresolved address throws. */
  function ToStringAddress(sa: SocketAddress): (r: Result<string, AddressError>)
    ensures r.Success? <==> sa.address.Some?
    ensures r.Failure? ==> r.error == NullPointer
  {
    match sa.address
    case None => Failure(NullPointer)
    case Some(a) => Success(a.hostAddress + ":" + NatToDecimal(sa.port))
  }

  /** `toIpAddress(address)`: the resolved host address alone, which is the
      part of `toStringAddress` before the colon it appends. */
  function ToIpAddress(sa: SocketAddress): (r: Result<string, AddressError>)
    ensures r.Success? <==> ToStringAddress(sa).Success?
    ensures r.Success? ==> ToStringAddress(sa).value == r.value + ":" + NatToDecimal(sa.port)
    ensures r.Failure? ==> r.error == NullPointer
  {
    match sa.address
    case None => Failure(NullPointer)
    case Some(a) => Success(a.hostAddress)
  }

  /** `validAddress(address)`: throws exactly when there is no host name or
      the port is 0. */
  function ValidAddress(sa: SocketAddress): (r: Outcome<AddressError>)
    ensures r.Fail? <==> sa.hostName.None? || sa.port == 0
    ensures r.Fail? ==> r.error == IllegalArgument
  {
    if sa.hostName.None? || sa.port == 0 then Fail(IllegalArgument) else Pass
  }

  // ---------------------------------------------------------------------
  // Proofs

  predicate NoColon(s: string) {
    forall j :: 0 <= j < |s| ==> s[j] != ':'
  }

  /** An unsigned run of digits is read as its decimal value when that
      value is in range. */
  lemma ParseSignedOfDigits(s: string, min: int, max: int)
    requires |s| >= 1 && AllDigits(s) && min <= DecimalValue(s) <= max
    ensures ParseSigned(s, min, max) == Success(DecimalValue(s))
  {
    assert IsDigit(s[0]);
  }

  /** The texts `parseInt` accepts: an optional sign, then at least one
      digit, with a signed value in range, which is the result. The empty
      text, a lone sign and anything holding another character fail. */
  lemma ParseSignedAccepts(s: string, min: int, max: int)
    ensures var d := if |s| > 0 && (s[0] == '-' || s[0] == '+') then s[1..] else s;
            ParseSigned(s, min, max).Success? <==>
              |d| >= 1 && AllDigits(d)
              && min <= (if s[0] == '-' then 0 - DecimalValue(d) as int else DecimalValue(d)) <= max
    ensures var d := if |s| > 0 && (s[0] == '-' || s[0] == '+') then s[1..] else s;
            ParseSigned(s, min, max).Success? ==>
              ParseSigned(s, min, max).value == if s[0] == '-' then 0 - DecimalValue(d) as int else DecimalValue(d)
  {
  }

  /** The printed form of every port is read back as that port. */
  lemma ParseIntOfDecimal(n: nat)
    requires n <= INT_MAX
    ensures ParseInt(NatToDecimal(n)) == Success(n)
  {
    DecimalRoundTrip(n);
    ParseSignedOfDigits(NatToDecimal(n), INT_MIN, INT_MAX);
  }

  /** A character that is neither a digit nor a leading sign makes the parse
      fail: `"8a"`, or a colon anywhere. */
  lemma ParseSignedRejectsNonDigit(s: string, j: nat, min: int, max: int)
    requires j < |s| && !IsDigit(s[j]) && !(j == 0 && (s[0] == '-' || s[0] == '+'))
    ensures ParseSigned(s, min, max) == Failure(NumberFormat)
  {
    if s[0] == '-' || s[0] == '+' {
      assert s[1..][j - 1] == s[j];
    }
  }

  /** Without a colon the whole text is the host and the port is 0. */
  lemma ParseWithoutColon(address: string, resolve: Resolver)
    requires NoColon(address)
    ensures ToInetSocketAddress(address, resolve) == Success(SocketAddress(Some(address), Lookup(resolve, address), 0))
  {
    IndexOfIsFirst(address, ':');
  }

  /** With a first colon at `k`, the host is the text before it and the port
      is the text after it: a port that `parseInt` rejects is a
      `NumberFormatException`, one outside 0..65535 an
      `IllegalArgumentException`. */
  lemma ParseAtFirstColon(address: string, k: nat, resolve: Resolver)
    requires k < |address| && address[k] == ':' && NoColon(address[..k])
    ensures var r := ToInetSocketAddress(address, resolve);
            var p := ParseInt(address[k + 1..]);
            && (p.Failure? ==> r == Failure(NumberFormat))
            && (p.Success? && !(0 <= p.value <= MAX_PORT) ==> r == Failure(IllegalArgument))
            && (p.Success? && 0 <= p.value <= MAX_PORT ==>
                  r == Success(SocketAddress(Some(address[..k]), Lookup(resolve, address[..k]), p.value)))
  {
    forall j | 0 <= j < k
      ensures address[j] != ':'
    {
      assert address[..k][j] == address[j];
    }
    IndexOfFirst(address, ':', k);
  }

  /** Printing a resolved address whose host address holds no colon and
      parsing the text again gives back its host address and port. */
  lemma StringAddressRoundTrip(sa: SocketAddress, resolve: Resolver)
    requires sa.address.Some? && NoColon(sa.address.value.hostAddress)
    ensures var h := sa.address.value.hostAddress;
            ToInetSocketAddress(ToStringAddress(sa).value, resolve) == Success(SocketAddress(Some(h), Lookup(resolve, h), sa.port))
  {
    var h := sa.address.value.hostAddress;
    var text := ToStringAddress(sa).value;
    var digits := NatToDecimal(sa.port);
    assert text == h + ":" + digits;
    assert text[..|h|] == h && text[|h|] == ':' && text[|h| + 1..] == digits;
    ParseIntOfDecimal(sa.port);
    ParseAtFirstColon(text, |h|, resolve);
  }

  /** For an IPv4 host address, printing then parsing rebuilds the socket
      address itself when the host resolves to the address it came from. */
  lemma Ipv4RoundTrip(sa: SocketAddress, resolve: Resolver)
    requires sa.address.Some? && IsIPv4(Some(sa.address.value.hostAddress))
    requires sa.hostName == Some(sa.address.value.hostAddress)
    requires Lookup(resolve, sa.address.value.hostAddress) == sa.address
    ensures ToInetSocketAddress(ToStringAddress(sa).value, resolve) == Success(sa)
  {
    IPv4HasNoColon(sa.address.value.hostAddress);
    StringAddressRoundTrip(sa, resolve);
  }

  /** A host address holding a colon, which every IPv6 address does, is
      printed in a form the parser cannot read back: the text after the
      first colon holds another colon. */
  lemma ColonHostNotReparsed(sa: SocketAddress, resolve: Resolver, k: nat)
    requires sa.address.Some? && k < |sa.address.value.hostAddress| && sa.address.value.hostAddress[k] == ':'
    ensures ToInetSocketAddress(ToStringAddress(sa).value, resolve) == Failure(NumberFormat)
  {
    var h := sa.address.value.hostAddress;
    var text := ToStringAddress(sa).value;
    assert text == h + ":" + NatToDecimal(sa.port);
    var i := IndexOf(text, ':');
    IndexOfIsFirst(text, ':');
    assert text[k] == ':';
    assert text[i + 1..][|h| - i - 1] == ':';
    ParseSignedRejectsNonDigit(text[i + 1..], |h| - i - 1, INT_MIN, INT_MAX);
  }

  /** Every IPv6 text holds a colon. */
  lemma Ipv6HasColon(s: string) returns (k: nat)
    requires IsIPv6(Some(s))
    ensures k < |s| && s[k] == ':'
  {
    var t := s[..BodyEnd(s)];
    k := IndexOf(t, ':');
    assert t[k] == s[k];
  }

  /** So an IPv6 socket address never survives printing and parsing. */
  lemma Ipv6NotReparsed(sa: SocketAddress, resolve: Resolver)
    requires sa.address.Some? && IsIPv6(Some(sa.address.value.hostAddress))
    ensures ToInetSocketAddress(ToStringAddress(sa).value, resolve) == Failure(NumberFormat)
  {
    var k := Ipv6HasColon(sa.address.value.hostAddress);
    ColonHostNotReparsed(sa, resolve, k);
  }

  /** A parsed address passes `validAddress` exactly when its port is not 0,
      so a text without a colon never does. */
  lemma ParsedAddressValidity(address: string, resolve: Resolver)
    requires ToInetSocketAddress(address, resolve).Success?
    ensures ValidAddress(ToInetSocketAddress(address, resolve).value).Pass?
        <==> ToInetSocketAddress(address, resolve).value.port != 0
    ensures NoColon(address) ==> ValidAddress(ToInetSocketAddress(address, resolve).value).Fail?
  {
    if NoColon(address) {
      ParseWithoutColon(address, resolve);
    }
  }
}

=== FILE: text.dfy ===
/** Character classes and decimal text, as used by the address grammars,
    by `Integer.parseInt`/`Long.parseLong` and by `int` to `String`
    conversion in string concatenation. */
module Text {

  predicate IsDigit(c: char) {
    '0' <= c <= '9'
  }

  /** The class `[\da-fA-F]` of the IPv6 pattern. */
  predicate IsHexDigit(c: char) {
    IsDigit(c) || 'a' <= c <= 'f' || 'A' <= c <= 'F'
  }

  predicate AllDigits(s: string) {
    forall i :: 0 <= i < |s| ==> IsDigit(s[i])
  }

  function DigitValue(c: char): (d: nat)
    requires IsDigit(c)
    ensures d < 10
  {
    c as int - '0' as int
  }

  function DigitChar(d: nat): (c: char)
    requires d < 10
    ensures IsDigit(c) && DigitValue(c) == d
  {
    ('0' as int + d) as char
  }

  /** Value of a string of ASCII decimal digits, most significant first. */
  function DecimalValue(s: string): nat
    requires AllDigits(s)
    decreases |s|
  {
    if |s| == 0 then 0 else DecimalValue(s[..|s| - 1]) * 10 + DigitValue(s[|s| - 1])
  }

  /** Shortest decimal rendering of `n`, as Java prints a non-negative `int`. */
  function NatToDecimal(n: nat): (r: string)
    ensures 1 <= |r| && AllDigits(r)
    ensures |r| > 1 ==> r[0] != '0'
    decreases n
  {
    if n < 10 then [DigitChar(n)] else NatToDecimal(n / 10) + [DigitChar(n % 10)]
  }

  /** Reading back what `NatToDecimal` printed gives the number again. */
  lemma {:induction false} DecimalRoundTrip(n: nat)
    ensures DecimalValue(NatToDecimal(n)) == n
    decreases n
  {
    if n >= 10 {
      var r := NatToDecimal(n);
      assert r[..|r| - 1] == NatToDecimal(n / 10);
      DecimalRoundTrip(n / 10);
    }
  }

  /** `String.indexOf(char)`: the first position of `c`, or -1. */
  function IndexOf(s: string, c: char): (r: int)
    ensures -1 <= r < |s|
    ensures r >= 0 ==> s[r] == c
    decreases |s|
  {
    if |s| == 0 then -1
    else if s[0] == c then 0
    else
      var k := IndexOf(s[1..], c);
      if k < 0 then -1 else k + 1
  }

  /** No `c` comes before the position `IndexOf` finds, and none at all
      when it finds nothing. */
  lemma {:induction false} IndexOfIsFirst(s: string, c: char)
    ensures forall j :: 0 <= j < |s| && (IndexOf(s, c) < 0 || j < IndexOf(s, c)) ==> s[j] != c
    decreases |s|
  {
    if |s| > 0 && s[0] != c {
      IndexOfIsFirst(s[1..], c);
      forall j | 0 < j < |s|
        ensures s[j] == s[1..][j - 1]
      {
      }
    }
  }

  /** A position holding `c` with no `c` before it is what `IndexOf` finds. */
  lemma IndexOfFirst(s: string, c: char, i: nat)
    requires i < |s| && s[i] == c
    requires forall j :: 0 <= j < i ==> s[j] != c
    ensures IndexOf(s, c) == i
  {
    IndexOfIsFirst(s, c);
  }

  /** A slice of a suffix is a slice of the whole string. */
  lemma SliceOfSuffix(s: string, a: nat, b: nat, c: nat)
    requires a <= |s| && b <= c <= |s| - a
    ensures s[a..][b..c] == s[a + b..a + c]
  {
    forall t | 0 <= t < c - b
      ensures s[a..][b..c][t] == s[a + b..a + c][t]
    {
      assert s[a..][b..c][t] == s[a + b + t];
    }
  }

  /** The fields of `s` between occurrences of `sep`, keeping empty fields. */
  function Split(s: string, sep: char): (r: seq<string>)
    ensures |r| >= 1
    decreases |s|
  {
    var i := IndexOf(s, sep);
    if i < 0 then [s] else [s[..i]] + Split(s[i + 1..], sep)
  }
}

=== FILE: wrappers.dfy ===
/** Failure-carrying values shared by the whole model: `Option` stands for a
    Java reference that may be null, `Result` for a call that may throw, and
    `Outcome` for a `void` call that may throw. */
module Wrappers {

  datatype Option<+T> = None | Some(value: T)

  datatype Result<+R, +E> = Success(value: R) | Failure(error: E)

  datatype Outcome<+E> = Pass | Fail(error: E)
}
